=== FILE: README.md ===
# Attendance report chat — a Dafny model

The system turns a question about attendance into SQL with a language model. It runs
the SQL against a database and shows the result as a plain-text table in a chat window.
On request, it renders the same rows as a PDF table.

This project models the deterministic logic around the language model, the database and
the chat framework:

- **`extract_date_range_from_query`** (module `DateRange`).
  - A hand-written, backtracking-free matcher for
    `(\d{4}-\d{2}-\d{2})\s*to\s*(\d{4}-\d{2}-\d{2})`.
  - A leftmost search that uses it.
  - The normalised range text.
  - A single-pass, case-insensitive deletion of `\s*from\s*<match>`, followed by `strip()`.
    It also needs no backtracking: the match always starts with a digit, which `\s*`
    cannot consume.
- **`generate_report`** (module `Report`).
  - The date fallback.
  - The clean-up of the generated SQL.
  - The text table.
  - The error path: every exception becomes a text with the `"Error generating report: "`
    prefix and no rows.
- **`generate_pdf_report`** up to the layout call (module `PdfLayout`): the title, the
  header labels, the grid of cells, the placeholder for no data, and the column widths.
- **`on_message` and `handle_download_pdf`** (module `Chat`). Both are pure transitions
  over the per-conversation session, which holds at most one cached report. `Run` folds
  them over a conversation.
- **Supporting modules.**
  - `Text` holds the Python string operations the code relies on: `isspace`, `strip`,
    `replace`, `title`, `join` and `repr`, restricted to ASCII.
  - `Records` holds the result rows as ordered association lists with distinct keys.
  - `Wrappers` holds `Option` and `Result`.
  - `DateRangeExamples` works through concrete questions.

The language model is a parameter `complete(dates, question)`: it gives the completion
text or `Err` with the exception text. The database is `execute(sql)`: it gives the
columns and rows, or `Err`.

A few behaviours of the code differ from the natural reading of it. The model follows
the code:

- An answer without rows does not clear the cached report. The earlier report stays
  downloadable.
- `on_message` stores the new report in the session before it sends the download offer.
  If that send raises, the user sees an error, yet the session already holds the new
  report.
- The chat's "No data found for the given query." branch cannot be reached. The report
  text is never empty.
- The SQL clean-up is a single pass, so it does not remove every `sql`: `"ssqlql"`
  becomes `"sql"`. Upper-case `SQL` is kept.
- The `to` of the date pattern is case-sensitive. `"2024-05-01 TO 2024-05-31"` has no
  range.
- The removal of `from` and the range ignores case, but the search does not, so the
  removal can overlap the range. In `"from 2024-05-01 TO 2024-05-01 to 2024-05-01"` the
  range is the last two dates, and the removal at the start reads `TO` as `to` and
  deletes the first half of that match: the cleaned question is `"to 2024-05-01"`.
- The removal deletes every `from` followed by the range, not only the one in front of
  the match. A later copy of `from` and the range is cut as well.
- When the first result row has no keys, the column list and the width list are both
  empty. The guard `num_columns > 0` only avoids the division.
- `get_previous_month_dates` returns the fixed range `2024-07-01 to 2024-07-31`.

## Model

| member | source | states |
|---|---|---|
| Records.Get | pdf_report.py:61 | `row.get(key)` is `None` exactly when the row has no such key; otherwise it is the value stored under that key |
| Text.Strip | main.py:105 | `strip()` returns a contiguous slice of the input with no whitespace at either end; only whitespace was cut on both sides |
| Text.StripEmptyIff | chainlit_app.py:17 | `raw.strip()` is empty exactly when every character is whitespace |
| Text.StripFixedIff | main.py:108 | `strip()` is the identity exactly on texts with no whitespace at either end |
| Text.StripIdempotent | main.py:108 | stripping a stripped text changes nothing |
| Text.StripKeepsInner | main.py:141 | a stretch that starts and ends with a non-space character survives `strip()` intact |
| Text.ReplaceAbsent | main.py:108 | `replace` of a pattern that does not occur returns the text unchanged |
| Text.RemoveAllShrinks | main.py:108 | deleting a pattern never lengthens the text and shortens it when the pattern occurs |
| Text.ReplaceAll | pdf_report.py:57 | `replace` of a pattern by itself changes nothing, and a replacement no longer than the pattern never lengthens the text |
| Text.RemoveAllIdentityIff | main.py:108 | deleting a pattern is the identity exactly when the pattern does not occur |
| Text.Title | main.py:121 | `str.title` keeps the length, upper-cases a letter exactly when the character before it is not a letter, lower-cases every other letter and keeps the rest |
| Text.TitleIdempotent | pdf_report.py:57 | title-casing twice is title-casing once |
| Text.JoinSameLength | main.py:121-122 | the length of a `join` depends only on the lengths of the separator and of the parts |
| Text.JoinAsCells | main.py:121-122 | a framed `join` is the concatenation of the individually framed parts |
| Text.JoinExcludes | main.py:121-124 | a character that is in neither the separator nor any part is not in the `join` |
| Text.ReprRoundTrip | main.py:129 | the text between the quotes of `repr(s)` reads back as `s`: the escapes lose nothing |
| Text.ReprPlain | main.py:129 | a string without backslashes, control characters or both kinds of quote is shown unchanged between quotes, which are double quotes exactly when the string holds a single quote |
| Text.SpaceEndUnique | main.py:136 | the greedy `\s*` stops at the only whitespace run followed by a non-space character or the end |
| DateRange.RangeText | main.py:138-139 | the normalised range is always 24 characters: first date, `" to "`, last date |
| DateRange.RangeMatchEnd | main.py:136 | a match of the date pattern stays inside the text, is at least 22 characters long, and starts and ends with a date |
| DateRange.RangeMatchEndIsPattern | main.py:136 | the scanner reports a match ending at `e` exactly when the text between belongs to the pattern's language (date, whitespace, `to`, whitespace, date), so the match at a position is unique |
| DateRange.FindRange | main.py:136 | `re.search` returns a position where the pattern matches, and no position before it matches |
| DateRange.FindsLeftmost | main.py:136 | the search returns the leftmost matching position |
| DateRange.LiteralFromAll | main.py:141 | the case-insensitive comparison of a literal agrees with the character-by-character reading of `IGNORECASE` |
| DateRange.LiteralAtSelf | main.py:141 | a text matches the escaped literal of itself |
| DateRange.FromMatchEnd | main.py:141 | a match of `\s*from\s*<match>` is at least as long as `from` plus the matched text and stays inside the text |
| DateRange.DeleteMatches | main.py:141 | one `re.sub` pass never lengthens the text |
| DateRange.DeleteMatchesShrinks | main.py:141 | the pass shortens the text as soon as the pattern matches anywhere |
| DateRange.DeleteMatchesUntouched | main.py:141 | characters before the first match pass through unchanged |
| DateRange.DeleteMatchesIdentityIff | main.py:141 | the pass changes the text exactly when the pattern matches somewhere |
| DateRange.NoFromWithoutF | main.py:141 | a text without `f` or `F` has no match of the removal pattern |
| DateRange.FromMatchEndIsPattern | main.py:141 | for a matched text that starts with a digit, the scanner reports a match ending at `e` exactly when the text between belongs to the language of `\s*from\s*<match>` ignoring case, so the match at a position is unique |
| DateRange.FromEnds | main.py:141 | position `j` of the match table holds `e` exactly when the text from `j` to `e` belongs to the language of the removal pattern |
| DateRange.RemoveFrom | main.py:141 | the removal never lengthens the question |
| DateRange.RemoveFromIdentityIff | main.py:141 | the removal changes the question exactly when the pattern matches, and then shortens it |
| DateRange.ExtractDateRange | main.py:134-144 | there is no range exactly when the pattern matches nowhere, and the question then comes back exactly, not even stripped; with a range, the range is well formed and the cleaned question is stripped |
| DateRange.MatchedRange | main.py:138-139 | the range built from a match is a well-formed range text |
| DateRange.MatchEdges | main.py:136 | a match starts and ends with a digit |
| DateRange.ExtractUsesLeftmostMatch | main.py:136-141 | the range joins the first and last date of the leftmost match; the cleaned question is the stripped result of the `from` removal for that match |
| DateRange.RangeOfLeftmostMatch | main.py:137-139 | whatever whitespace separated the dates, the range is `start + " to " + end` |
| DateRange.CleanedIsStripped | main.py:141-142 | when the removal pattern matches nowhere in the question, the cleaned question is the stripped input |
| DateRange.NoRemovalInsideMatch | main.py:136-141 | no match of the removal pattern starts inside the leftmost range match |
| DateRange.MatchKeptByRemoval | main.py:141 | when no removal match starts before the range match, the removal keeps the question up to the end of that match unchanged |
| DateRange.MatchSurvivesStrip | main.py:141-142 | when no removal match starts before the range match, the matched text occurs in the cleaned question |
| DateRange.RangeKeptWithoutFrom | main.py:136-142 | when no removal match starts before the leftmost range match, the matched text stays in the cleaned question, even if a later `from` and a copy of the range are cut; when the removal pattern matches nowhere, the cleaned question is the stripped input |
| DateRangeExamples.FromQueryMatch | main.py:136 | in `"from 2024-05-01 to 2024-05-31"` the pattern first matches at 5, ending at 29 |
| DateRangeExamples.FromQueryRemoval | main.py:141 | there, the removal pattern covers the whole text |
| DateRangeExamples.FromQueryRange | main.py:137-139 | its range is `"2024-05-01 to 2024-05-31"` |
| DateRangeExamples.FromQueryCleaned | main.py:141 | nothing is left of its question |
| DateRangeExamples.CutsFromRange | main.py:134-142 | `"from 2024-05-01 to 2024-05-31"` gives `("", "2024-05-01 to 2024-05-31")` |
| DateRangeExamples.QuestionMatch | main.py:136 | in the worked example the pattern first matches where the first date starts |
| DateRangeExamples.QuestionNoEarlyFrom | main.py:141 | before the space in front of `from`, no `f` starts a removal match |
| DateRangeExamples.QuestionRemoval | main.py:141 | the removal pattern matches from the space in front of `from` to the end |
| DateRangeExamples.QuestionNoEarlyRemoval | main.py:141 | the removal pattern matches nowhere before that space |
| DateRangeExamples.QuestionRemoved | main.py:141 | the single pass keeps `"how many present"` |
| DateRangeExamples.QuestionRange | main.py:137-139 | the worked example's range is `"2024-05-01 to 2024-05-31"` |
| DateRangeExamples.QuestionCleaned | main.py:141 | the worked example's cleaned question is `"how many present"` |
| DateRangeExamples.CutsRangeFromQuestion | main.py:134-142 | `"how many present from 2024-05-01 to 2024-05-31"` gives `("how many present", "2024-05-01 to 2024-05-31")` |
| DateRangeExamples.UpperToFirstDate | main.py:136 | with `TO` the pattern does not match at the first date |
| DateRangeExamples.UpperCaseToIsNoRange | main.py:136-144 | `"2024-05-01 TO 2024-05-31"` has no range and comes back untouched |
| DateRangeExamples.UnvalidatedMatch | main.py:136 | `"9999-99-99 to 0000-00-00"` matches as a whole |
| DateRangeExamples.UnvalidatedRange | main.py:137-139 | its range is the whole text: dates are not validated |
| DateRangeExamples.UnvalidatedCleaned | main.py:141-142 | without `from`, its range text stays in the question |
| DateRangeExamples.UnvalidatedDatesAccepted | main.py:134-142 | `"9999-99-99 to 0000-00-00"` gives itself twice, as question and as range |
| DateRangeExamples.MixedSpaceMatch | main.py:136 | a tab before `to` and a newline after it are matched by `\s*` |
| DateRangeExamples.MixedSpaceRange | main.py:137-139 | the range of that question has single spaces |
| DateRangeExamples.MixedSpaceCleaned | main.py:141-142 | the question keeps its own tab and newline |
| DateRangeExamples.MixedWhitespaceNormalised | main.py:134-142 | `"2024-05-01\t to\n2024-05-31"` keeps its spacing as question and gives `"2024-05-01 to 2024-05-31"` as range |
| DateRangeExamples.RemovalOverlapsRange | main.py:134-142 | `"from 2024-05-01 TO 2024-05-01 to 2024-05-01"` gives the range `"2024-05-01 to 2024-05-01"` and the cleaned question `"to 2024-05-01"` |
| Report.PreviousMonthDates | main.py:94-95 | the fallback is the well-formed range from 2024-07-01 to 2024-07-31 |
| Report.EffectiveDates | main.py:100 | the dates are the given range when it is non-empty, the fallback for `None` and for `""`; never empty |
| Report.ExtractedRangeIsUsed | main.py:100 | a range extracted from the question is always used as is; the fallback is used only when there is none |
| Report.CleanSql | main.py:105-108 | the cleaned SQL has no whitespace at either end, contains no three backticks in a row, and is no longer than the completion |
| Report.NoTicksLeft | main.py:108 | after the backtick deletion no three backticks in a row are left |
| Report.StripKeepsNoOccurrence | main.py:108 | `strip()` cannot create an occurrence |
| Report.CleanSqlFixedIff | main.py:105-108 | clean-up leaves a text alone exactly when it is stripped and contains neither `sql` nor three backticks |
| Report.CleanSqlOnlyStrips | main.py:105-108 | without `sql` and backticks, clean-up is only the strip |
| Report.UpperSqlKept | main.py:108 | the deletion is case-sensitive: `"SQL"` is kept |
| Report.SqlCanSurvive | main.py:108 | the single pass turns `"ssqlql"` into `"sql"` |
| Report.SqlUntouched | main.py:108 | `"sql"` passes the rest of the clean-up unchanged |
| Report.TicksCanJoinSql | main.py:108 | deleting backticks after `sql` can join a new `sql`: `"sq```l"` becomes `"sql"` |
| Report.Values | main.py:124 | `row[col]` for every column succeeds exactly when the row has every column; the values are those of the columns in order; otherwise the error is the `KeyError` text, the `repr` of the key, of the first missing column |
| Report.KeyErrorSingleQuotes | main.py:124-129 | the `KeyError` text of `emp_id` is `'emp_id'` |
| Report.KeyErrorDoubleQuotes | main.py:124-129 | the `KeyError` text of `it's` is `"it's"`: a key holding a single quote gets double quotes |
| Report.RowLine | main.py:124 | a row line can be built exactly when the row has every column; otherwise the error is the `KeyError` text of the row's first missing column |
| Report.RowLines | main.py:123-124 | the lines of all rows can be built exactly when every row can; otherwise the error is that of the first row that lacks a column, for its first missing column |
| Report.FormatReport | main.py:120-126 | the report succeeds exactly when every row has every column, and it starts with the preamble, the header line and the separator line; otherwise the error is the `KeyError` text of the first bad row's first missing column |
| Report.HeaderCells | main.py:121 | the header line is a bar followed, per column, by the title-cased name between single spaces and a closing bar |
| Report.SeparatorCells | main.py:122 | the separator line is a bar followed, per column, by `len(col) + 2` dashes and a bar |
| Report.RowCells | main.py:124 | a row line is a bar followed, per column, by the row's value for that column between single spaces and a closing bar |
| Report.LineTexts | main.py:123-124 | one line per row, each the line of that row |
| Report.RowLinesInOrder | main.py:123-124 | the row lines are the lines of the rows, concatenated in row order |
| Report.ReportText | main.py:120-126 | the whole report is the preamble, the header line, the separator line and then the row lines in row order |
| Report.HeaderMatchesSeparator | main.py:121-122 | the header line and the separator line are equally long |
| Report.RowLineBreaks | main.py:124 | for values without line breaks, each row line holds exactly one line break |
| Report.RowLinesBreaks | main.py:123-124 | for values without line breaks, the rows contribute exactly one line each |
| Report.TitleNoBreak | main.py:121 | title-casing never introduces a line break |
| Report.PreambleBreaks | main.py:120 | for a question and dates without line breaks, the preamble is three lines: `Report for: q`, `Dates: d` and a blank line |
| Report.HeaderBreaks | main.py:121 | for column names without line breaks, the header is one line |
| Report.SeparatorBreaks | main.py:122 | the separator is one line |
| Report.ReportLineBreaks | main.py:120-124 | for a question, dates, column names and values without line breaks, the report has exactly `5 + len(rows)` lines |
| Report.Failed | main.py:128-129 | the `except` branch returns a text with the error prefix and no rows |
| Report.GenerateReport | main.py:97-129 | the text is never empty; an error text comes with no rows; no rows means `"No data found"` or an error; rows mean that the model and the database both answered, the rows are returned unchanged, the text starts with the preamble for the effective dates, and it is exactly the formatted report of the database's columns and rows |
| Report.GenerateReportFailsIff | main.py:98-129 | the text carries the error prefix exactly when the model raised, the database raised, or a non-empty result could not be formatted |
| Report.GenerateReportFailures | main.py:98-129 | each failure returns the error prefix followed by what raised: the model's exception text, the database's exception text, or the `KeyError` text of the first row that lacks a column, for its first missing column; and no rows |
| Report.GenerateReportNoDataIff | main.py:117-118 | `("No data found", [])` comes back exactly when the query ran and returned no rows |
| PdfLayout.Columns | pdf_report.py:55-65 | the columns are the first row's keys in order, or `["Message"]` when there is no data |
| PdfLayout.Cells | pdf_report.py:61 | one cell per column, holding `row.get(col, "")` |
| PdfLayout.HeaderLabel | pdf_report.py:57 | a column whose title-cased name contains neither `Empname` nor `Vrdate` is labelled with its title-cased name |
| PdfLayout.HeaderRow | pdf_report.py:57 | one header label per column |
| PdfLayout.BodyRows | pdf_report.py:60-62 | one row of cells per data row, in order |
| PdfLayout.Table | pdf_report.py:55-65 | without data, the table is the single placeholder cell; otherwise it has `1 + len(result_data)` rows: the header row of the first row's keys, then each data row's cells for those keys |
| PdfLayout.ColumnWidths | pdf_report.py:67-71 | `num_columns` widths, all equal |
| PdfLayout.WidthsFillPage | pdf_report.py:67-71 | with at least one column, the widths add up to the printable width |
| PdfLayout.BuildLayout | pdf_report.py:50-71 | the title is `"Attendance Report<br/>" + user_query`; the grid and the widths are those of the data's columns |
| PdfLayout.NoColumnsNoWidths | pdf_report.py:68-71 | there is one width per column, and no width at all exactly when the first row has no keys |
| PdfLayout.DatesNeverRead | pdf_report.py:16-71 | the layout does not depend on `specific_dates` |
| PdfLayout.MissingKeyIsEmpty | pdf_report.py:61 | a row lacking one of the first row's keys shows `""` in that cell |
| PdfLayout.ExtraKeysIgnored | pdf_report.py:56-62 | keys absent from the first row do not influence the layout |
| PdfLayout.EmpNameLabel | pdf_report.py:57 | `empName` is labelled `"Employee Name"` |
| PdfLayout.VrdateLabel | pdf_report.py:57 | `vrdate` is labelled `"Date"` |
| PdfLayout.EmpIdLabel | pdf_report.py:57 | `empId` is only title-cased, to `"Empid"` |
| Chat.Respond | chainlit_app.py:26-54 | the session changes only to a report with rows; without rows it stays; a fault at the first send leaves the session and shows only the error; otherwise the report text comes first, then the error when the second send it reaches raises, and without such a fault the offer (rows) or the no-PDF notice (no rows) |
| Chat.OnMessage | chainlit_app.py:13-54 | a blank message gives the single warning and keeps the session; any message leaves the session unchanged or caching a report with rows |
| Chat.BlankMessageConsultsNothing | chainlit_app.py:17-19 | a blank message is answered the same whatever the model and the database would do |
| Chat.MessageShowsReport | chainlit_app.py:23-30 | without a fault, a non-blank message shows the report of the cleaned question for the extracted range, then one more message; the fallback sentence is never shown |
| Chat.FallbackNotShown | chainlit_app.py:27-30 | a report text other than the fallback keeps the fallback off the screen |
| Chat.ReportIsNotFallback | main.py:117-129 | the report text is never empty and never the chat's fallback sentence |
| Chat.RowsAreCached | chainlit_app.py:33-49 | without a fault, rows replace the cached report with the cleaned question, the extracted range and those rows, and the download is offered |
| Chat.NoRowsKeepsSession | chainlit_app.py:50-51 | without rows the cached report stays, whatever fault occurs |
| Chat.EarlyFaultKeepsSession | chainlit_app.py:27-28 | a fault while showing the report keeps the session and shows only the error |
| Chat.LateFaultKeepsNewReport | chainlit_app.py:33-54 | a fault at the download offer still leaves the new report cached, and the last message is the error |
| Chat.Download | chainlit_app.py:57-86 | the session never changes; without a cached report the single warning; otherwise the PDF of the cached triple as `attendance_report.pdf`, `application/pdf`, or the PDF error |
| Chat.DownloadRepeatable | chainlit_app.py:57-86 | a second click does exactly what the first did |
| Chat.Run | chainlit_app.py:13-86 | a cached report always holds rows, and only messages change the session |
| Chat.ClickAfterRun | chainlit_app.py:59-84 | after any conversation from an empty session, a click warns that there is no report or attaches the PDF of a report with rows |

## Left out

- The language model call and its prompt text and schema (main.py:40-92, 101-105) are the parameter `complete`. The database engine, `connection.execute` and `result.mappings()` (main.py:111-114) are the parameter `execute`. The startup connectivity probe with `exit(1)`, dotenv loading and the stdout reconfiguration are not modelled.
- Exceptions become `Err` values that carry the text `str(e)`. Which exceptions the model and the database raise is up to those parameters.
- Text.Strip, Text.Title, Text.IsSpace and the regular-expression classes `\d` and `\s` are modelled for ASCII only. `IGNORECASE` is ASCII case folding. Non-ASCII digits, spaces and letters behave differently in Python.
- Result values are represented by their `str()` text. The conversion of database values to text is not modelled.
- PdfLayout.ColumnWidths: the widths are exact real numbers, not floats. The A4 width and the margins are the parameter `totalWidth`.
- The reportlab styles, `Paragraph` markup parsing, `Spacer`s, `TableStyle`, `doc.build` and the byte buffer (pdf_report.py:17-48, 73-96) are not modelled. The `except` branch around the table (pdf_report.py:90-92) is not modelled either. Its exceptions would come from reportlab itself.
- `generate_unique_name` (pdf_report.py:11-13) reads the clock and is never called.
- `on_chat_start` (chainlit_app.py:8-10) only sends a greeting and touches no state.
- The chat framework's asynchrony is not modelled; handlers are synchronous transitions. A failing send is the `Fault` parameter for the sends inside `on_message`'s `try`, and the `pdfFault` parameter for `handle_download_pdf`. A failure of the warning or error sends themselves is not modelled.
- Chat.Download: the PDF file is represented by its layout, not by its bytes. The action's payload is not modelled.
- Report.ReportLineBreaks: it counts lines only for questions, dates, column names and values without line breaks, because those can hold any text.
- PdfLayout.WidthsFillPage: holds for at least one column only; with zero columns the width list is empty.
- PdfLayout.BuildLayout: with zero columns the model keeps the grid of empty rows and the empty width list. reportlab's `Table` most likely rejects such a grid, and the program would then show the table-error paragraph of pdf_report.py:90-92 instead. reportlab is not modelled.
- Text.Repr: only the ASCII escapes are modelled. Python also escapes non-printable characters above ASCII, and the model keeps every such character as it is.

=== FILE: chat.dfy ===
/** The two chat handlers of chainlit_app.py, `on_message` and `handle_download_pdf`, as
    pure transitions over the per-conversation session. The session holds at most one
    cached report (`query_info`); each handler returns the new session and the messages
    it sends, in order. */
module Chat {
  import opened Wrappers
  import opened Text
  import opened Records
  import DateRange
  import Report
  import PdfLayout

  /** The value stored under "query_info". */
  datatype QueryInfo = QueryInfo(cleanedQuery: string, extractedDateRange: Option<string>,
                                 resultData: seq<Row>)

  /** `cl.user_session.get("query_info")`: nothing until a query returned rows. */
  type Session = Option<QueryInfo>

  /** A button attached to a message. */
  datatype Action = Action(name: string, caption: string)

  /** A file attached to a message; `layout` stands for the PDF bytes it is rendered from. */
  datatype File = File(name: string, mime: string, layout: PdfLayout.Layout)

  /** One message sent to the user. */
  datatype Output =
    | Say(content: string)
    | Offer(content: string, action: Action)
    | Attach(content: string, file: File)

  /** The session after a handler and the messages it sent. */
  datatype Step = Step(session: Session, outputs: seq<Output>)

  const EmptyQuery: string := "\U{26A0}\U{FE0F} Query cannot be empty!"
  const NoDataForQuery: string := "No data found for the given query."
  const ReportReady: string := "\U{2705} Report generated. Click below to download the PDF."
  const DownloadAction: Action := Action("download_pdf", "\U{1F4C4} Download PDF")
  const NoPdfData: string := "\U{2139}\U{FE0F} No data available to generate a PDF report."
  const ErrorOccurred: string := "\U{274C} An error occurred: "
  const NoReportData: string := "\U{26A0}\U{FE0F} No report data found. Please run a query first."
  const HereIsPdf: string := "\U{1F4C4} Here is your PDF report:"
  const PdfFileName: string := "attendance_report.pdf"
  const PdfMime: string := "application/pdf"
  const PdfError: string := "\U{274C} Error generating PDF: "

  /** Where, if anywhere, sending a message inside `on_message`'s `try` raises, and with
      what text. A fault at a send the run does not reach has no effect. */
  datatype Fault =
    | NoFault
    | AtReportSend(detail: string)
    | AtOfferSend(detail: string)
    | AtNoPdfSend(detail: string)

  // ---------------------------------------------------------------------------
  // on_message

  /** The part of `on_message` after the report is generated: show the report text, then
      cache the rows and offer the download, or say that there is nothing to download. */
  function Respond(session: Session, cleaned: string, range: Option<string>,
                   out: Report.ReportOutput, fault: Fault): (st: Step)
    ensures st.session == session || (st.session.Some? && st.session.value.resultData != [])
    ensures out.data == [] ==> st.session == session
    ensures out.data != [] && !fault.AtReportSend? ==> st.session == Some(QueryInfo(cleaned, range, out.data))
    ensures fault.AtReportSend? ==> st == Step(session, [Say(ErrorOccurred + fault.detail)])
    ensures !fault.AtReportSend? ==> |st.outputs| == 2
    ensures !fault.AtReportSend? && out.text != [] ==> st.outputs[0] == Say(out.text)
    ensures (fault.AtOfferSend? && out.data != []) || (fault.AtNoPdfSend? && out.data == []) ==>
      st.outputs[1] == Say(ErrorOccurred + fault.detail)
    ensures fault.NoFault? || (fault.AtOfferSend? && out.data == []) || (fault.AtNoPdfSend? && out.data != []) ==>
      st.outputs[1] == if out.data != [] then Offer(ReportReady, DownloadAction) else Say(NoPdfData)
  {
    var shown := if out.text != [] then out.text else NoDataForQuery;
    if fault.AtReportSend? then Step(session, [Say(ErrorOccurred + fault.detail)])
    else if out.data != [] then
      var saved := Some(QueryInfo(cleaned, range, out.data));
      if fault.AtOfferSend? then Step(saved, [Say(shown), Say(ErrorOccurred + fault.detail)])
      else Step(saved, [Say(shown), Offer(ReportReady, DownloadAction)])
    else if fault.AtNoPdfSend? then Step(session, [Say(shown), Say(ErrorOccurred + fault.detail)])
    else Step(session, [Say(shown), Say(NoPdfData)])
  }

  /** `on_message(message)` with `message.content == raw`. The language model and the
      database are `complete` and `execute`, as for `generate_report`. */
  function OnMessage(session: Session, raw: string,
                     complete: (string, string) -> Result<string>,
                     execute: string -> Result<Report.Execution>,
                     fault: Fault): (st: Step)
    ensures Strip(raw) == [] ==> st == Step(session, [Say(EmptyQuery)])
    ensures st.session == session || (st.session.Some? && st.session.value.resultData != [])
    ensures st.outputs != []
  {
    if Strip(raw) == [] then Step(session, [Say(EmptyQuery)])
    else
      var x := DateRange.ExtractDateRange(raw);
      Respond(session, x.cleaned, x.range, Report.GenerateReport(x.cleaned, x.range, complete, execute), fault)
  }

  /** A blank message is answered with the warning alone, whatever the model and the
      database would do: neither is consulted. */
  lemma BlankMessageConsultsNothing(session: Session, raw: string,
                                    complete1: (string, string) -> Result<string>,
                                    execute1: string -> Result<Report.Execution>,
                                    complete2: (string, string) -> Result<string>,
                                    execute2: string -> Result<Report.Execution>,
                                    fault1: Fault, fault2: Fault)
    requires AllSpace(raw)
    ensures OnMessage(session, raw, complete1, execute1, fault1)
         == OnMessage(session, raw, complete2, execute2, fault2)
         == Step(session, [Say(EmptyQuery)])
  {
    StripEmptyIff(raw);
  }

  /** Without faults, a non-blank message first shows the report text of the cleaned
      question over the extracted range; that text is never empty, so the fallback
      "No data found for the given query." is never sent. */
  lemma MessageShowsReport(session: Session, raw: string,
                           complete: (string, string) -> Result<string>,
                           execute: string -> Result<Report.Execution>)
    requires Strip(raw) != []
    ensures var x := DateRange.ExtractDateRange(raw);
            var st := OnMessage(session, raw, complete, execute, NoFault);
            && |st.outputs| == 2
            && st.outputs[0] == Say(Report.GenerateReport(x.cleaned, x.range, complete, execute).text)
            && Say(NoDataForQuery) !in st.outputs
  {
    var x := DateRange.ExtractDateRange(raw);
    var out := Report.GenerateReport(x.cleaned, x.range, complete, execute);
    var st := Respond(session, x.cleaned, x.range, out, NoFault);
    assert OnMessage(session, raw, complete, execute, NoFault) == st;
    ReportIsNotFallback(x.cleaned, x.range, complete, execute);
    FallbackNotShown(session, x.cleaned, x.range, out);
  }

  /** A report text other than the fallback sentence keeps the fallback off the screen. */
  lemma FallbackNotShown(session: Session, cleaned: string, range: Option<string>,
                         out: Report.ReportOutput)
    requires out.text != [] && out.text != NoDataForQuery
    ensures Say(NoDataForQuery) !in Respond(session, cleaned, range, out, NoFault).outputs
  {
    var st := Respond(session, cleaned, range, out, NoFault);
    assert st.outputs == [st.outputs[0], st.outputs[1]];
    assert |NoPdfData| != |NoDataForQuery|;
  }

  /** The report text is never empty and never the fallback sentence, so the fallback is
      never shown. */
  lemma ReportIsNotFallback(userQuery: string, specificDates: Option<string>,
                            complete: (string, string) -> Result<string>,
                            execute: string -> Result<Report.Execution>)
    ensures var out := Report.GenerateReport(userQuery, specificDates, complete, execute);
            out.text != [] && out.text != NoDataForQuery
  {
    var out := Report.GenerateReport(userQuery, specificDates, complete, execute);
    if out.data == [] {
      if out.text != Report.NoData {
        assert out.text[0] == Report.ErrorPrefix[0];
      }
    } else {
      assert out.text[0] == 'R';
    }
  }

  /** A report with rows replaces the cached report with the cleaned question, the
      extracted range and those rows, and offers the download. */
  lemma RowsAreCached(session: Session, raw: string,
                      complete: (string, string) -> Result<string>,
                      execute: string -> Result<Report.Execution>)
    requires Strip(raw) != []
    ensures var x := DateRange.ExtractDateRange(raw);
            var st := OnMessage(session, raw, complete, execute, NoFault);
            Report.GenerateReport(x.cleaned, x.range, complete, execute).data != [] ==>
            && st.session == Some(QueryInfo(x.cleaned, x.range,
                                            Report.GenerateReport(x.cleaned, x.range, complete, execute).data))
            && st.outputs[1] == Offer(ReportReady, DownloadAction)
  {
    var x := DateRange.ExtractDateRange(raw);
    var out := Report.GenerateReport(x.cleaned, x.range, complete, execute);
    assert OnMessage(session, raw, complete, execute, NoFault)
        == Respond(session, x.cleaned, x.range, out, NoFault);
  }

  /** A report without rows leaves the cached report in place, so an earlier report stays
      downloadable. */
  lemma NoRowsKeepsSession(session: Session, raw: string,
                           complete: (string, string) -> Result<string>,
                           execute: string -> Result<Report.Execution>,
                           fault: Fault)
    requires Strip(raw) != []
    ensures var x := DateRange.ExtractDateRange(raw);
            Report.GenerateReport(x.cleaned, x.range, complete, execute).data == [] ==>
            OnMessage(session, raw, complete, execute, fault).session == session
  {
  }

  /** A fault before the session is written leaves the session unchanged and ends with the
      error message. */
  lemma EarlyFaultKeepsSession(session: Session, raw: string,
                               complete: (string, string) -> Result<string>,
                               execute: string -> Result<Report.Execution>,
                               detail: string)
    ensures var st := OnMessage(session, raw, complete, execute, AtReportSend(detail));
            && st.session == session
            && (Strip(raw) != [] ==> st.outputs == [Say(ErrorOccurred + detail)])
  {
  }

  /** The session is written before the download offer is sent, so a fault at that send
      reports an error yet keeps the new report. */
  lemma LateFaultKeepsNewReport(session: Session, raw: string,
                                complete: (string, string) -> Result<string>,
                                execute: string -> Result<Report.Execution>,
                                detail: string)
    requires Strip(raw) != []
    ensures var x := DateRange.ExtractDateRange(raw);
            var st := OnMessage(session, raw, complete, execute, AtOfferSend(detail));
            Report.GenerateReport(x.cleaned, x.range, complete, execute).data != [] ==>
            && st.session == OnMessage(session, raw, complete, execute, NoFault).session
            && st.outputs[|st.outputs| - 1] == Say(ErrorOccurred + detail)
  {
  }

  // ---------------------------------------------------------------------------
  // handle_download_pdf

  /** `handle_download_pdf(action)`. `totalWidth` is the printable page width and
      `pdfFault` the text of the exception rendering or sending the PDF raises, if any. */
  function Download(session: Session, totalWidth: real, pdfFault: Option<string>): (st: Step)
    ensures st.session == session
    ensures session.None? ==> st.outputs == [Say(NoReportData)]
    ensures session.Some? && pdfFault.None? ==>
      var info := session.value;
      st.outputs == [Attach(HereIsPdf, File(PdfFileName, PdfMime,
        PdfLayout.BuildLayout(info.cleanedQuery, info.extractedDateRange, info.resultData, totalWidth)))]
    ensures session.Some? && pdfFault.Some? ==> st.outputs == [Say(PdfError + pdfFault.value)]
  {
    match session
    case None => Step(session, [Say(NoReportData)])
    case Some(info) =>
      match pdfFault
      case Some(e) => Step(session, [Say(PdfError + e)])
      case None =>
        var layout := PdfLayout.BuildLayout(info.cleanedQuery, info.extractedDateRange,
                                            info.resultData, totalWidth);
        Step(session, [Attach(HereIsPdf, File(PdfFileName, PdfMime, layout))])
  }

  /** Downloading can be repeated: it never changes the session, so a second click does
      exactly what the first did. */
  lemma DownloadRepeatable(session: Session, totalWidth: real, pdfFault: Option<string>)
    ensures var first := Download(session, totalWidth, pdfFault);
            Download(first.session, totalWidth, pdfFault) == first
  {
  }

  // ---------------------------------------------------------------------------
  // A conversation

  /** One user event. */
  datatype Event =
    | Message(raw: string, fault: Fault)
    | Click(pdfFault: Option<string>)

  /** A cached report always holds rows. */
  predicate Valid(session: Session)
  {
    session.None? || session.value.resultData != []
  }

  /** The session after a sequence of events, starting from `session`. */
  function Run(session: Session, events: seq<Event>,
               complete: (string, string) -> Result<string>,
               execute: string -> Result<Report.Execution>,
               totalWidth: real): (s: Session)
    ensures Valid(session) ==> Valid(s)
    ensures s != session ==> exists i | 0 <= i < |events| :: events[i].Message?
    decreases |events|
  {
    if events == [] then session
    else
      var next :=
        match events[0]
        case Message(raw, fault) => OnMessage(session, raw, complete, execute, fault).session
        case Click(pdfFault) => Download(session, totalWidth, pdfFault).session;
      var s := Run(next, events[1..], complete, execute, totalWidth);
      assert forall i | 0 <= i < |events| - 1 :: events[1..][i] == events[i + 1];
      s
  }

  /** After any conversation that starts empty, a click either warns that there is no
      report or offers the PDF of the last report that had rows. */
  lemma ClickAfterRun(events: seq<Event>,
                      complete: (string, string) -> Result<string>,
                      execute: string -> Result<Report.Execution>,
                      totalWidth: real)
    ensures var s := Run(None, events, complete, execute, totalWidth);
            var st := Download(s, totalWidth, None);
            || st.outputs == [Say(NoReportData)]
            || (st.outputs[0].Attach? && s.value.resultData != [])
  {
  }
}

=== FILE: date_range.dfy ===
/** `extract_date_range_from_query` (main.py): find an explicit `YYYY-MM-DD to YYYY-MM-DD`
    range in a question and cut it, together with a preceding "from", out of the question. */
module DateRange {
  import opened Wrappers
  import opened Text

  predicate IsDigit(c: char)
  {
    '0' <= c <= '9'
  }

  /** `\d{4}-\d{2}-\d{2}` at position `i` of `s`, over ASCII digits. Nothing checks that it
      names a real calendar date. */
  predicate DateAt(s: string, i: int)
  {
    && 0 <= i && i + 10 <= |s| && s[i + 4] == '-' && s[i + 7] == '-'
    && IsDigit(s[i]) && IsDigit(s[i + 1]) && IsDigit(s[i + 2]) && IsDigit(s[i + 3])
    && IsDigit(s[i + 5]) && IsDigit(s[i + 6]) && IsDigit(s[i + 8]) && IsDigit(s[i + 9])
  }

  predicate IsDate(d: string)
  {
    |d| == 10 && DateAt(d, 0)
  }

  /** The normalised range text `start + " to " + end`. */
  predicate IsRangeText(r: string)
  {
    |r| == 24 && IsDate(r[..10]) && r[10..14] == " to " && IsDate(r[14..])
  }

  /** The range text built from two dates: always 24 characters with single spaces. */
  function RangeText(start: string, end: string): (r: string)
    requires IsDate(start) && IsDate(end)
    ensures IsRangeText(r) && r[..10] == start && r[14..] == end
  {
    var r := start + " to " + end;
    assert r[..10] == start && r[10..14] == " to " && r[14..] == end;
    r
  }

  /** The date found at position `i`, as a string. */
  lemma DateAtSlice(s: string, i: int)
    requires DateAt(s, i)
    ensures IsDate(s[i..i + 10])
  {
  }

  // ---------------------------------------------------------------------------
  // The search pattern `(\d{4}-\d{2}-\d{2})\s*to\s*(\d{4}-\d{2}-\d{2})`

  /** End of the match of the search pattern that starts at position `i`, if there is one.
      Each `\s*` is followed by a literal that is not whitespace (`t`, a digit), so the
      greedy run of whitespace is the only way to go on and no backtracking is needed. */
  function RangeMatchEnd(s: string, i: nat): (e: Option<nat>)
    requires i <= |s|
    ensures e.Some? ==> i + 22 <= e.value <= |s| && DateAt(s, i) && DateAt(s, e.value - 10)
  {
    if !DateAt(s, i) then None
    else
      var a := SpaceEnd(s, i + 10);
      if a + 2 <= |s| && s[a] == 't' && s[a + 1] == 'o' then
        var b := SpaceEnd(s, a + 2);
        if DateAt(s, b) then Some(b + 10) else None
      else None
  }

  /** `s[i..e]` reads date, whitespace, "to" (at `a`), whitespace, date (at `b`). */
  predicate RangeSplit(s: string, i: int, a: int, b: int, e: int)
  {
    && i + 10 <= a && a + 2 <= b && b + 10 == e <= |s|
    && DateAt(s, i) && SpaceBetween(s, i + 10, a) && s[a] == 't' && s[a + 1] == 'o'
    && SpaceBetween(s, a + 2, b) && DateAt(s, b)
  }

  /** `s[i..e]` belongs to the language of the search pattern. */
  ghost predicate InRangePattern(s: string, i: int, e: int)
  {
    exists a, b :: RangeSplit(s, i, a, b, e)
  }

  /** The scanner reports a match ending at `e` exactly when `s[i..e]` is in the language
      of the pattern; so at any start the match, if any, is unique. */
  lemma RangeMatchEndIsPattern(s: string, i: nat, e: int)
    requires i <= |s|
    ensures RangeMatchEnd(s, i) == Some(e) <==> InRangePattern(s, i, e)
  {
    if RangeMatchEnd(s, i) == Some(e) {
      var a := SpaceEnd(s, i + 10);
      assert RangeSplit(s, i, a, SpaceEnd(s, a + 2), e);
    }
    if InRangePattern(s, i, e) {
      var a, b :| RangeSplit(s, i, a, b, e);
      SpaceEndUnique(s, i + 10, a);
      SpaceEndUnique(s, a + 2, b);
    }
  }

  /** The search pattern matches at position `j` of `s`. */
  predicate RangeAt(s: string, j: int)
  {
    0 <= j <= |s| && RangeMatchEnd(s, j).Some?
  }

  /** `re.search` from position `i`: the leftmost position at or after `i` where the
      pattern matches. */
  function FindRange(s: string, i: nat): (r: Option<nat>)
    requires i <= |s|
    ensures r.Some? ==> i <= r.value <= |s| && RangeAt(s, r.value)
    ensures forall j | i <= j <= |s| && RangeAt(s, j) :: r.Some? && r.value <= j
    decreases |s| - i
  {
    if RangeMatchEnd(s, i).Some? then Some(i)
    else if i == |s| then None
    else FindRange(s, i + 1)
  }

  /** The search returns the leftmost match position. */
  lemma FindsLeftmost(s: string, i: nat)
    requires RangeAt(s, i)
    requires forall j | 0 <= j < i :: !RangeAt(s, j)
    ensures FindRange(s, 0) == Some(i)
  {
  }

  // ---------------------------------------------------------------------------
  // The removal pattern `\s*from\s*` + re.escape(matched), flags=re.IGNORECASE

  /** `s[i..]` starts with the literal `lit`, compared ignoring ASCII case. */
  predicate LiteralAt(s: string, i: int, lit: string)
  {
    0 <= i && i + |lit| <= |s| && LiteralFrom(s, i, lit, 0)
  }

  /** Characters `k..` of `lit` agree, ignoring ASCII case, with `s` from `i + k` on. */
  predicate LiteralFrom(s: string, i: int, lit: string, k: nat)
    requires 0 <= i && i + |lit| <= |s| && k <= |lit|
    decreases |lit| - k
  {
    k == |lit| || (Lower(s[i + k]) == Lower(lit[k]) && LiteralFrom(s, i, lit, k + 1))
  }

  /** The scan agrees with the character-by-character reading of the literal. */
  lemma {:induction false} LiteralFromAll(s: string, i: int, lit: string, k: nat)
    requires 0 <= i && i + |lit| <= |s| && k <= |lit|
    ensures LiteralFrom(s, i, lit, k) <==> forall n | k <= n < |lit| :: Lower(s[i + n]) == Lower(lit[n])
    decreases |lit| - k
  {
    if k < |lit| {
      LiteralFromAll(s, i, lit, k + 1);
    }
  }

  /** A text matches itself, whatever the case. */
  lemma LiteralAtSelf(s: string, i: nat, lit: string)
    requires i + |lit| <= |s| && s[i..i + |lit|] == lit
    ensures LiteralAt(s, i, lit)
  {
    assert forall n | 0 <= n < |lit| :: s[i + n] == lit[n];
    LiteralFromAll(s, i, lit, 0);
  }

  /** The matched text the program escapes always starts with a digit (it is a match of the
      search pattern). Then the character after each `\s*` of the removal pattern is not
      whitespace, so the greedy run is the only way to go on and no backtracking is needed;
      the scan below relies on this. */
  predicate LeadsWithDigit(m: string)
  {
    m != [] && IsDigit(m[0])
  }

  /** End of the match of the removal pattern that starts at position `p`, if any. The
      escaped text `m` and the word "from" are compared ignoring ASCII case. */
  function FromMatchEnd(s: string, m: string, p: nat): (e: Option<nat>)
    requires p <= |s| && LeadsWithDigit(m)
    ensures e.Some? ==> p + 4 + |m| <= e.value <= |s|
  {
    var a := SpaceEnd(s, p);
    if LiteralAt(s, a, "from") then
      var b := SpaceEnd(s, a + 4);
      if LiteralAt(s, b, m) then Some(b + |m|) else None
    else None
  }

  /** `s[p..e]` reads whitespace, "from" in any case (at `a`), whitespace, `m` in any case
      (at `b`). */
  predicate FromSplit(s: string, m: string, p: int, a: int, b: int, e: int)
  {
    && p <= a && a + 4 <= b && b + |m| == e <= |s|
    && SpaceBetween(s, p, a) && LiteralAt(s, a, "from")
    && SpaceBetween(s, a + 4, b) && LiteralAt(s, b, m)
  }

  /** `s[p..e]` belongs to the language of `\s*from\s*` + `m`, ignoring case. */
  ghost predicate InFromPattern(s: string, m: string, p: int, e: int)
  {
    exists a, b :: FromSplit(s, m, p, a, b, e)
  }

  /** A character that equals, ignoring case, a letter of "from" or a digit is not
      whitespace. */
  lemma LowerNotSpace(c: char, d: char)
    requires Lower(c) == Lower(d) && (IsDigit(d) || 'a' <= d <= 'z')
    ensures !IsSpace(c)
  {
  }

  /** The scanner reports a match ending at `e` exactly when `s[p..e]` is in the language
      of the removal pattern; so at any start the match, if any, is unique. */
  lemma FromMatchEndIsPattern(s: string, m: string, p: nat, e: int)
    requires p <= |s| && LeadsWithDigit(m)
    ensures FromMatchEnd(s, m, p) == Some(e) <==> InFromPattern(s, m, p, e)
  {
    if FromMatchEnd(s, m, p) == Some(e) {
      var a := SpaceEnd(s, p);
      assert FromSplit(s, m, p, a, SpaceEnd(s, a + 4), e);
    }
    if InFromPattern(s, m, p, e) {
      var a, b :| FromSplit(s, m, p, a, b, e);
      LowerNotSpace(s[a], 'f');
      SpaceEndUnique(s, p, a);
      LowerNotSpace(s[b], m[0]);
      SpaceEndUnique(s, a + 4, b);
    }
  }

  /** The removal pattern matches at position `j` of `s`. */
  predicate FromAt(s: string, m: string, j: int)
    requires LeadsWithDigit(m)
  {
    0 <= j <= |s| && FromMatchEnd(s, m, j).Some?
  }

  /** For each position of `s`, where the match that starts there ends, if any; every
      match is non-empty and stays inside `s`. */
  predicate MatchTable(s: string, ends: seq<Option<nat>>)
  {
    && |ends| == |s|
    && forall j | 0 <= j < |s| && ends[j].Some? :: j < ends[j].value <= |s|
  }

  /** `re.sub(pattern, '', s[p..])` for a pattern whose matches are given by `ends`: one
      left-to-right pass that deletes each match and resumes after it; a position where
      nothing matches keeps its character. */
  function DeleteMatches(s: string, ends: seq<Option<nat>>, p: nat): (r: string)
    requires MatchTable(s, ends) && p <= |s|
    ensures |r| <= |s| - p
    decreases |s| - p
  {
    if p == |s| then []
    else
      match ends[p]
      case Some(e) => DeleteMatches(s, ends, e)
      case None => [s[p]] + DeleteMatches(s, ends, p + 1)
  }

  /** The pass shortens the text as soon as the pattern matches anywhere in it. */
  lemma {:induction false} DeleteMatchesShrinks(s: string, ends: seq<Option<nat>>, p: nat, j: int)
    requires MatchTable(s, ends) && p <= j < |s| && ends[j].Some?
    ensures |DeleteMatches(s, ends, p)| < |s| - p
    decreases |s| - p
  {
    if ends[p].None? {
      DeleteMatchesShrinks(s, ends, p + 1, j);
    }
  }

  /** Characters before the first match pass through the pass unchanged. */
  lemma {:induction false} DeleteMatchesUntouched(s: string, ends: seq<Option<nat>>, p: nat, k: nat)
    requires MatchTable(s, ends) && p <= k <= |s|
    requires forall j | p <= j < k :: ends[j].None?
    ensures DeleteMatches(s, ends, p) == s[p..k] + DeleteMatches(s, ends, k)
    decreases k - p
  {
    if p < k {
      var head, tail, rest := [s[p]], s[p + 1..k], DeleteMatches(s, ends, k);
      assert DeleteMatches(s, ends, p) == head + DeleteMatches(s, ends, p + 1);
      DeleteMatchesUntouched(s, ends, p + 1, k);
      assert head + tail == s[p..k];
      assert head + (tail + rest) == (head + tail) + rest;
    }
  }

  /** The pass changes the text exactly when the pattern matches somewhere. */
  lemma DeleteMatchesIdentityIff(s: string, ends: seq<Option<nat>>)
    requires MatchTable(s, ends)
    ensures DeleteMatches(s, ends, 0) == s <==> forall j | 0 <= j < |s| :: ends[j].None?
  {
    if forall j | 0 <= j < |s| :: ends[j].None? {
      DeleteMatchesUntouched(s, ends, 0, |s|);
    } else {
      var j :| 0 <= j < |s| && ends[j].Some?;
      DeleteMatchesShrinks(s, ends, 0, j);
    }
  }

  /** A text without an "f" of either case has no match of the removal pattern. */
  lemma NoFromWithoutF(s: string, m: string)
    requires LeadsWithDigit(m) && 'f' !in s && 'F' !in s
    ensures forall j | 0 <= j < |s| :: !FromAt(s, m, j)
  {
    forall j | 0 <= j < |s| ensures !FromAt(s, m, j) {
      var a := SpaceEnd(s, j);
      if a + 4 <= |s| {
        assert s[a] in s;
      }
    }
  }

  /** The match table of the removal pattern over `s`: position `j` records `e` exactly
      when `s[j..e]` is in the language of the pattern. */
  function FromEnds(s: string, m: string): (ends: seq<Option<nat>>)
    requires LeadsWithDigit(m)
    ensures MatchTable(s, ends)
    // A convenience for callers; it follows from the next clause and FromMatchEndIsPattern.
    ensures forall j | 0 <= j < |s| :: ends[j].Some? <==> FromAt(s, m, j)
    ensures forall j, e | 0 <= j < |s| :: ends[j] == Some(e) <==> InFromPattern(s, m, j, e)
  {
    var ends := seq(|s|, j requires 0 <= j < |s| => FromMatchEnd(s, m, j));
    assert forall j, e | 0 <= j < |s| :: ends[j] == Some(e) <==> InFromPattern(s, m, j, e) by {
      forall j, e | 0 <= j < |s| ensures ends[j] == Some(e) <==> InFromPattern(s, m, j, e) {
        FromMatchEndIsPattern(s, m, j, e);
      }
    }
    ends
  }

  /** `re.sub(r'\s*from\s*' + re.escape(m), '', s, flags=re.IGNORECASE)`. */
  function RemoveFrom(s: string, m: string): (r: string)
    requires LeadsWithDigit(m)
    ensures |r| <= |s|
  {
    DeleteMatches(s, FromEnds(s, m), 0)
  }

  /** Removing "from" + `m` changes the text exactly when that pattern occurs in it; when it
      does, the text gets strictly shorter. */
  lemma RemoveFromIdentityIff(s: string, m: string)
    requires LeadsWithDigit(m)
    ensures RemoveFrom(s, m) == s <==> forall j | 0 <= j < |s| :: !FromAt(s, m, j)
    ensures (exists j | 0 <= j < |s| :: FromAt(s, m, j)) ==> |RemoveFrom(s, m)| < |s|
  {
    var ends := FromEnds(s, m);
    DeleteMatchesIdentityIff(s, ends);
    if j :| 0 <= j < |s| && FromAt(s, m, j) {
      DeleteMatchesShrinks(s, ends, 0, j);
    }
  }

  // ---------------------------------------------------------------------------
  // extract_date_range_from_query

  /** The cleaned question and the normalised range, if one was found. */
  datatype Extraction = Extraction(cleaned: string, range: Option<string>)

  /** main.py's `extract_date_range_from_query`. */
  function ExtractDateRange(query: string): (x: Extraction)
    ensures x.range.None? <==> forall j | 0 <= j <= |query| :: !RangeAt(query, j)
    ensures x.range.None? ==> x.cleaned == query
    ensures x.range.Some? ==> IsRangeText(x.range.value) && Stripped(x.cleaned)
  {
    match FindRange(query, 0)
    case None => Extraction(query, None)
    case Some(i) =>
      var e := RangeMatchEnd(query, i).value;
      assert query[i..e][0] == query[i];
      Extraction(Strip(RemoveFrom(query, query[i..e])), Some(MatchedRange(query, i, e)))
  }

  /** The normalised range of the match `s[i..e]`: its first and last date. */
  function MatchedRange(s: string, i: nat, e: nat): (r: string)
    requires i <= |s| && RangeMatchEnd(s, i) == Some(e)
    ensures IsRangeText(r)
  {
    DateAtSlice(s, i);
    DateAtSlice(s, e - 10);
    RangeText(s[i..i + 10], s[e - 10..e])
  }

  /** A match starts and ends with a digit. */
  lemma MatchEdges(s: string, i: nat, e: nat)
    requires i <= |s| && RangeMatchEnd(s, i) == Some(e)
    ensures i < e && IsDigit(s[i]) && IsDigit(s[e - 1])
  {
  }

  /** The result in terms of the leftmost match `query[i..e]`: the range is its first and
      last date joined by " to ", and the question loses every "from" + matched text. */
  lemma ExtractUsesLeftmostMatch(query: string, i: nat, e: nat)
    requires i <= |query| && RangeMatchEnd(query, i) == Some(e)
    requires forall j | 0 <= j < i :: !RangeAt(query, j)
    ensures ExtractDateRange(query).range == Some(query[i..i + 10] + " to " + query[e - 10..e])
    ensures ExtractDateRange(query).cleaned == Strip(RemoveFrom(query, query[i..e]))
  {
    FindsLeftmost(query, i);
    var start, end := query[i..i + 10], query[e - 10..e];
    assert ExtractDateRange(query).range == Some(RangeText(start, end));
  }

  /** The range of the leftmost match, given its first and last date. */
  lemma RangeOfLeftmostMatch(query: string, i: nat, e: nat, start: string, end: string)
    requires i <= |query| && RangeMatchEnd(query, i) == Some(e)
    requires forall j | 0 <= j < i :: !RangeAt(query, j)
    requires query[i..i + 10] == start && query[e - 10..e] == end
    ensures ExtractDateRange(query).range == Some(start + " to " + end)
  {
    ExtractUsesLeftmostMatch(query, i, e);
  }

  /** Every character of a date is a digit or a dash. */
  lemma DateChars(s: string, i: int, j: int)
    requires DateAt(s, i) && i <= j < i + 10
    ensures IsDigit(s[j]) || s[j] == '-'
  {
    assert j == i || j == i + 1 || j == i + 2 || j == i + 3 || j == i + 4
        || j == i + 5 || j == i + 6 || j == i + 7 || j == i + 8 || j == i + 9;
  }

  /** No match of the removal pattern starts inside a match of the search pattern: from any
      position there, the greedy `\s*` stops at a digit, a dash, `t` or `o`, and none of
      these reads as the "f" of "from". */
  lemma NoRemovalInsideMatch(s: string, i: nat, e: nat, j: nat)
    requires i <= |s| && RangeMatchEnd(s, i) == Some(e) && i <= j < e
    ensures !FromAt(s, s[i..e], j)
  {
    var a0 := SpaceEnd(s, i + 10);
    var b0 := SpaceEnd(s, a0 + 2);
    assert b0 + 10 == e && DateAt(s, b0) && s[a0] == 't' && s[a0 + 1] == 'o';
    var k: nat;
    if j < i + 10 {
      DateChars(s, i, j);
      k := j;
    } else if j < a0 {
      k := a0;
    } else if j < a0 + 2 {
      k := j;
    } else if j < b0 {
      k := b0;
    } else {
      DateChars(s, b0, j);
      k := j;
    }
    assert k < |s| && Lower(s[k]) != 'f';
    SpaceEndUnique(s, j, k);
  }

  /** The removal keeps everything up to the end of the leftmost match when no removal
      match starts before it. */
  lemma MatchKeptByRemoval(query: string, i: nat, e: nat)
    requires i <= |query| && RangeMatchEnd(query, i) == Some(e)
    requires forall j | 0 <= j < i :: !FromAt(query, query[i..e], j)
    ensures var r := RemoveFrom(query, query[i..e]); e <= |r| && r[..e] == query[..e]
  {
    var matched := query[i..e];
    var ends := FromEnds(query, matched);
    forall j | 0 <= j < e ensures ends[j].None? {
      if i <= j {
        NoRemovalInsideMatch(query, i, e, j);
      }
    }
    DeleteMatchesUntouched(query, ends, 0, e);
  }

  /** The stripped result of the removal still holds the match. */
  lemma MatchSurvivesStrip(query: string, i: nat, e: nat)
    requires i <= |query| && RangeMatchEnd(query, i) == Some(e)
    requires forall j | 0 <= j < i :: !FromAt(query, query[i..e], j)
    ensures Occurs(Strip(RemoveFrom(query, query[i..e])), query[i..e])
  {
    MatchKeptByRemoval(query, i, e);
    var r := RemoveFrom(query, query[i..e]);
    assert r[i..e] == query[i..e] by {
      assert r[i..e] == r[..e][i..e] && query[i..e] == query[..e][i..e];
    }
    // The match starts and ends with a digit, so stripping cannot reach into it.
    MatchEdges(query, i, e);
    StripKeepsInner(r, i, e);
  }

  /** Unless a removal match starts before it, the matched text survives in the cleaned
      question: a later "from" + matched text may be cut, but the match itself is kept.
      When the removal pattern matches nowhere, the cleaned question is the stripped
      input. */
  lemma RangeKeptWithoutFrom(query: string, i: nat, e: nat, matched: string)
    requires i <= |query| && RangeMatchEnd(query, i) == Some(e)
    requires forall j | 0 <= j < i :: !RangeAt(query, j)
    requires matched == query[i..e]
    requires forall j | 0 <= j < i :: !FromAt(query, matched, j)
    ensures (forall j | 0 <= j < |query| :: !FromAt(query, matched, j)) ==>
              ExtractDateRange(query).cleaned == Strip(query)
    ensures Occurs(ExtractDateRange(query).cleaned, matched)
  {
    if forall j | 0 <= j < |query| :: !FromAt(query, matched, j) {
      CleanedIsStripped(query, i, e, matched);
    }
    MatchSurvivesStrip(query, i, e);
    ExtractUsesLeftmostMatch(query, i, e);
  }

  /** Without a "from" in front of the match, nothing is removed. */
  lemma CleanedIsStripped(query: string, i: nat, e: nat, matched: string)
    requires i <= |query| && RangeMatchEnd(query, i) == Some(e)
    requires forall j | 0 <= j < i :: !RangeAt(query, j)
    requires matched == query[i..e]
    requires forall j | 0 <= j < |query| :: !FromAt(query, matched, j)
    ensures ExtractDateRange(query).cleaned == Strip(query)
  {
    assert RemoveFrom(query, matched) == query by {
      RemoveFromIdentityIff(query, matched);
    }
    ExtractUsesLeftmostMatch(query, i, e);
  }
}

=== FILE: date_range_examples.dfy ===
/** Worked inputs for `extract_date_range_from_query`. */
module DateRangeExamples {
  import opened Wrappers
  import opened Text
  import opened DateRange

  const Start: string := "2024-05-01"
  const End: string := "2024-05-31"
  const Matched: string := Start + " to " + End
  const FromQuery: string := "from " + Matched

  /** The search pattern matches "from 2024-05-01 to 2024-05-31" at position 5 and
      nowhere before. */
  lemma FromQueryMatch()
    ensures RangeMatchEnd(FromQuery, 5) == Some(29)
    ensures forall j | 0 <= j < 5 :: !RangeAt(FromQuery, j)
  {
    var q := FromQuery;
    assert |q| == 29;
    assert DateAt(q, 5);
    SpaceEndUnique(q, 15, 16);
    SpaceEndUnique(q, 18, 19);
    assert DateAt(q, 19);
    forall j | 0 <= j < 5 ensures !RangeAt(q, j) {
      assert j == 0 || j == 1 || j == 2 || j == 3 || j == 4;
      assert !IsDigit(q[j]);
    }
  }

  /** The removal pattern for the matched range matches the whole of that question. */
  lemma FromQueryRemoval()
    ensures FromMatchEnd(FromQuery, Matched, 0) == Some(29)
  {
    var q, m := FromQuery, Matched;
    assert q[0..4] == "from" && q[5..29] == m;
    SpaceEndUnique(q, 0, 0);
    LiteralAtSelf(q, 0, "from");
    SpaceEndUnique(q, 4, 5);
    LiteralAtSelf(q, 5, m);
  }

  /** The range found in "from 2024-05-01 to 2024-05-31". */
  lemma FromQueryRange()
    ensures ExtractDateRange(FromQuery).range == Some(Matched)
  {
    var q := FromQuery;
    assert q[5..15] == Start && q[19..29] == End;
    FromQueryMatch();
    RangeOfLeftmostMatch(q, 5, 29, Start, End);
  }

  /** Nothing is left of "from 2024-05-01 to 2024-05-31" once the range is cut out. */
  lemma FromQueryCleaned()
    ensures ExtractDateRange(FromQuery).cleaned == []
  {
    var q := FromQuery;
    assert q[5..29] == Matched;
    FromQueryMatch();
    ExtractUsesLeftmostMatch(q, 5, 29);
    FromQueryRemoval();
    var ends := FromEnds(q, Matched);
    assert DeleteMatches(q, ends, 0) == DeleteMatches(q, ends, 29) == [];
    assert Strip([]) == [];
  }

  /** A range with a leading "from" is cut out and normalised. */
  lemma CutsFromRange()
    ensures ExtractDateRange(FromQuery) == Extraction("", Some(Matched))
  {
    FromQueryRange();
    FromQueryCleaned();
  }

  const Question: string := "how many present " + FromQuery

  /** The search pattern first matches "how many present from 2024-05-01 to 2024-05-31" at
      position 22, where the first date starts. */
  lemma QuestionMatch()
    ensures RangeMatchEnd(Question, 22) == Some(46)
    ensures forall j | 0 <= j < 22 :: !RangeAt(Question, j)
  {
    var q := Question;
    assert |q| == 46;
    assert DateAt(q, 22);
    SpaceEndUnique(q, 32, 33);
    SpaceEndUnique(q, 35, 36);
    assert DateAt(q, 36);
    forall j | 0 <= j < 22 ensures !RangeAt(q, j) {
      assert j < 11 || 11 <= j < 22;
      if j < 11 {
        assert j == 0 || j == 1 || j == 2 || j == 3 || j == 4 || j == 5 || j == 6 || j == 7
            || j == 8 || j == 9 || j == 10;
      } else {
        assert j == 11 || j == 12 || j == 13 || j == 14 || j == 15 || j == 16 || j == 17
            || j == 18 || j == 19 || j == 20 || j == 21;
      }
      assert !IsDigit(q[j]);
    }
  }

  /** Before the space in front of "from", no position starts a "from". */
  lemma QuestionNoEarlyFrom(a: int)
    requires 0 <= a < 16
    ensures Lower(Question[a]) != 'f'
  {
    assert a == 0 || a == 1 || a == 2 || a == 3 || a == 4 || a == 5 || a == 6 || a == 7
        || a == 8 || a == 9 || a == 10 || a == 11 || a == 12 || a == 13 || a == 14 || a == 15;
  }

  /** The removal pattern matches at position 16. */
  lemma QuestionRemoval()
    ensures FromMatchEnd(Question, Matched, 16) == Some(46)
  {
    var q, m := Question, Matched;
    assert |q| == 46;
    assert q[17..21] == "from" && q[22..46] == m;
    SpaceEndUnique(q, 16, 17);
    LiteralAtSelf(q, 17, "from");
    SpaceEndUnique(q, 21, 22);
    LiteralAtSelf(q, 22, m);
  }

  /** The removal pattern matches nowhere before position 16. */
  lemma QuestionNoEarlyRemoval()
    ensures forall j | 0 <= j < 16 :: !FromAt(Question, Matched, j)
  {
    var q := Question;
    forall j | 0 <= j < 16 ensures !FromAt(q, Matched, j) {
      var a := SpaceEnd(q, j);
      assert a <= 15 by {
        assert !IsSpace(q[15]);
      }
      QuestionNoEarlyFrom(a);
    }
  }

  /** The single pass keeps "how many present" and deletes the rest. */
  lemma QuestionRemoved()
    ensures RemoveFrom(Question, Matched) == "how many present"
  {
    var q := Question;
    QuestionRemoval();
    QuestionNoEarlyRemoval();
    var ends := FromEnds(q, Matched);
    DeleteMatchesUntouched(q, ends, 0, 16);
    assert DeleteMatches(q, ends, 16) == DeleteMatches(q, ends, 46) == [];
    assert q[0..16] == "how many present";
  }

  /** The range of the worked example: the first match, normalised. */
  lemma QuestionRange()
    ensures ExtractDateRange(Question).range == Some(Matched)
  {
    var q := Question;
    assert q[22..32] == Start && q[36..46] == End;
    QuestionMatch();
    RangeOfLeftmostMatch(q, 22, 46, Start, End);
  }

  /** The cleaned question of the worked example. */
  lemma QuestionCleaned()
    ensures ExtractDateRange(Question).cleaned == "how many present"
  {
    var q, kept := Question, "how many present";
    assert q[22..46] == Matched;
    QuestionMatch();
    ExtractUsesLeftmostMatch(q, 22, 46);
    QuestionRemoved();
    assert Stripped(kept);
    StripFixedIff(kept);
  }

  /** The worked example: the range and the "from" in front of it leave the question. */
  lemma CutsRangeFromQuestion()
    ensures ExtractDateRange("how many present from 2024-05-01 to 2024-05-31")
         == Extraction("how many present", Some("2024-05-01 to 2024-05-31"))
  {
    assert Question == "how many present from 2024-05-01 to 2024-05-31";
    assert Matched == "2024-05-01 to 2024-05-31";
    QuestionRange();
    QuestionCleaned();
  }

  const UpperTo: string := "2024-05-01 TO 2024-05-31"

  /** At its only date followed by whitespace, "TO" does not match the pattern's "to". */
  lemma UpperToFirstDate()
    ensures RangeMatchEnd(UpperTo, 0) == None
  {
    SpaceEndUnique(UpperTo, 10, 11);
    assert UpperTo[11] == 'T';
  }

  /** The search pattern's "to" is case-sensitive: with "TO" there is no range and the
      question is returned untouched. */
  lemma UpperCaseToIsNoRange()
    ensures ExtractDateRange("2024-05-01 TO 2024-05-31")
         == Extraction("2024-05-01 TO 2024-05-31", None)
  {
    var q := UpperTo;
    assert |q| == 24;
    UpperToFirstDate();
    forall j | 0 <= j <= |q| ensures !RangeAt(q, j) {
      if 0 < j < 3 {
        assert q[5] != '-' && q[6] != '-';
      }
    }
  }

  const Nines: string := "9999-99-99"
  const Zeros: string := "0000-00-00"
  const Unvalidated: string := Nines + " to " + Zeros

  /** The whole of "9999-99-99 to 0000-00-00" matches the search pattern. */
  lemma UnvalidatedMatch()
    ensures RangeMatchEnd(Unvalidated, 0) == Some(24)
  {
    var q := Unvalidated;
    assert |q| == 24;
    assert DateAt(q, 0);
    SpaceEndUnique(q, 10, 11);
    SpaceEndUnique(q, 13, 14);
    assert DateAt(q, 14);
  }

  /** The range of "9999-99-99 to 0000-00-00" is the whole text. */
  lemma UnvalidatedRange()
    ensures ExtractDateRange(Unvalidated).range == Some(Unvalidated)
  {
    var q := Unvalidated;
    assert q[0..10] == Nines && q[14..24] == Zeros;
    UnvalidatedMatch();
    RangeOfLeftmostMatch(q, 0, 24, Nines, Zeros);
  }

  /** Without a "from", "9999-99-99 to 0000-00-00" keeps its range text. */
  lemma UnvalidatedCleaned()
    ensures ExtractDateRange(Unvalidated).cleaned == Unvalidated
  {
    var q := Unvalidated;
    UnvalidatedMatch();
    assert q[0..24] == q;
    NoFromWithoutF(q, q);
    RangeKeptWithoutFrom(q, 0, 24, q);
    StripFixedIff(q);
  }

  /** The dates are not validated: any digits in the right places make a range. Without a
      "from", the question keeps the range text. */
  lemma UnvalidatedDatesAccepted()
    ensures ExtractDateRange(Unvalidated) == Extraction(Unvalidated, Some(Unvalidated))
  {
    UnvalidatedRange();
    UnvalidatedCleaned();
  }

  const MixedSpace: string := Start + "\t to\n" + End

  /** The whole of the question matches, across a tab and a newline. */
  lemma MixedSpaceMatch()
    ensures RangeMatchEnd(MixedSpace, 0) == Some(25)
  {
    var q := MixedSpace;
    assert |q| == 25;
    assert DateAt(q, 0);
    SpaceEndUnique(q, 10, 12);
    SpaceEndUnique(q, 14, 15);
    assert DateAt(q, 15);
  }

  /** The range of the question is normalised to single spaces. */
  lemma MixedSpaceRange()
    ensures ExtractDateRange(MixedSpace).range == Some(Matched)
  {
    var q := MixedSpace;
    MixedSpaceMatch();
    assert q[0..10] == Start && q[15..25] == End;
    RangeOfLeftmostMatch(q, 0, 25, Start, End);
  }

  /** Without a "from", the question keeps its own spacing. */
  lemma MixedSpaceCleaned()
    ensures ExtractDateRange(MixedSpace).cleaned == MixedSpace
  {
    var q := MixedSpace;
    MixedSpaceMatch();
    assert q[0..25] == q;
    NoFromWithoutF(q, q);
    RangeKeptWithoutFrom(q, 0, 25, q);
    StripFixedIff(q);
  }

  /** Any run of whitespace around "to" is normalised to single spaces in the range, while
      the question keeps its own spacing. */
  lemma MixedWhitespaceNormalised()
    ensures ExtractDateRange(MixedSpace) == Extraction(MixedSpace, Some(Matched))
  {
    MixedSpaceRange();
    MixedSpaceCleaned();
  }

  const SameDay: string := Start + " to " + Start
  const Overlap: string := "from " + Start + " TO " + SameDay

  /** In "from 2024-05-01 TO 2024-05-01 to 2024-05-01" the search pattern skips the first
      date (its "TO" is upper case) and first matches at position 19. */
  lemma OverlapMatch()
    ensures RangeMatchEnd(Overlap, 19) == Some(43)
    ensures forall j | 0 <= j < 19 :: !RangeAt(Overlap, j)
  {
    var q := Overlap;
    assert |q| == 43;
    assert DateAt(q, 19);
    SpaceEndUnique(q, 29, 30);
    SpaceEndUnique(q, 32, 33);
    assert DateAt(q, 33);
    forall j | 0 <= j < 19 ensures !RangeAt(q, j) {
      if j == 5 {
        SpaceEndUnique(q, 15, 16);
        assert q[16] == 'T';
      } else {
        assert j < 5 || 5 < j < 12 || 12 <= j < 19;
        if j < 5 {
          assert j == 0 || j == 1 || j == 2 || j == 3 || j == 4;
          assert !IsDigit(q[j]);
        } else if j < 12 {
          assert j == 6 || j == 7 || j == 8 || j == 9 || j == 10 || j == 11;
          assert !DateAt(q, j);
        } else {
          assert j == 12 || j == 13 || j == 14 || j == 15 || j == 16 || j == 17 || j == 18;
          assert !DateAt(q, j);
        }
      }
    }
  }

  /** The removal pattern is case-insensitive, so at position 0 it reads "TO" as "to" and
      matches "from 2024-05-01 TO 2024-05-01", ending inside the range match. */
  lemma OverlapRemoval()
    ensures FromMatchEnd(Overlap, SameDay, 0) == Some(29)
  {
    var q, m := Overlap, SameDay;
    assert |q| == 43 && |m| == 24;
    assert q[0..4] == "from";
    SpaceEndUnique(q, 0, 0);
    LiteralAtSelf(q, 0, "from");
    SpaceEndUnique(q, 4, 5);
    assert q[5..16] == m[..11] && q[18..29] == m[13..];
    assert q[16] == 'T' && m[11] == 't' && q[17] == 'O' && m[12] == 'o';
    forall n | 0 <= n < 24 ensures Lower(q[5 + n]) == Lower(m[n]) {
      if n < 11 {
        assert q[5 + n] == q[5..16][n];
      } else if n >= 13 {
        assert q[5 + n] == q[18..29][n - 13];
      }
    }
    LiteralFromAll(q, 5, m, 0);
  }

  /** The text after the removal match holds no "f", so nothing else is removed. */
  lemma OverlapRest()
    ensures forall j | 29 <= j < |Overlap| :: !FromAt(Overlap, SameDay, j)
  {
    var q, rest := Overlap, " to 2024-05-01";
    assert q[29..] == rest;
    forall j | 29 <= j < |q| ensures !FromAt(q, SameDay, j) {
      var a := SpaceEnd(q, j);
      if a + 4 <= |q| {
        assert q[a] == rest[a - 29];
      }
    }
  }

  /** The single pass deletes "from 2024-05-01 TO 2024-05-01" and keeps the rest. */
  lemma OverlapRemoved()
    ensures RemoveFrom(Overlap, SameDay) == " to 2024-05-01"
  {
    var q := Overlap;
    OverlapRemoval();
    OverlapRest();
    var ends := FromEnds(q, SameDay);
    DeleteMatchesUntouched(q, ends, 29, 43);
    assert DeleteMatches(q, ends, 0) == DeleteMatches(q, ends, 29);
    assert q[29..43] == " to 2024-05-01";
  }

  /** Stripping the leading space of what is left. */
  lemma OverlapStripped()
    ensures Strip(" to 2024-05-01") == "to 2024-05-01"
  {
    var s, left := " to 2024-05-01", "to 2024-05-01";
    SpaceEndUnique(s, 0, 1);
    assert s[1..] == left;
    assert !IsSpace(s[|s| - 1]);
  }

  /** The cut runs over the first half of the range: "to 2024-05-01" is what is left. */
  lemma OverlapCleaned()
    ensures ExtractDateRange(Overlap).cleaned == "to 2024-05-01"
  {
    var q := Overlap;
    assert q[19..43] == SameDay;
    OverlapMatch();
    ExtractUsesLeftmostMatch(q, 19, 43);
    OverlapRemoved();
    OverlapStripped();
  }

  /** The range is the last two dates. */
  lemma OverlapRange()
    ensures ExtractDateRange(Overlap).range == Some(SameDay)
  {
    var q := Overlap;
    assert q[19..29] == Start && q[33..43] == Start;
    OverlapMatch();
    RangeOfLeftmostMatch(q, 19, 43, Start, Start);
  }

  /** The case-insensitive removal can overlap the case-sensitive range: the range is the
      last two dates, and the cleaned question keeps part of it. */
  lemma RemovalOverlapsRange()
    ensures ExtractDateRange("from 2024-05-01 TO 2024-05-01 to 2024-05-01")
         == Extraction("to 2024-05-01", Some("2024-05-01 to 2024-05-01"))
  {
    assert Overlap == "from 2024-05-01 TO 2024-05-01 to 2024-05-01";
    assert SameDay == "2024-05-01 to 2024-05-01";
    OverlapRange();
    OverlapCleaned();
  }
}

=== FILE: pdf_layout.dfy ===
/** The table that `generate_pdf_report` (pdf_report.py) lays out: its title, its grid of
    cell texts and its column widths. Styling and the PDF bytes are not part of it. */
module PdfLayout {
  import opened Wrappers
  import opened Text
  import opened Records

  /** `col.title().replace("Empname", "Employee Name").replace("Vrdate", "Date")`. */
  function HeaderLabel(col: string): (shown: string)
    ensures !Occurs(Title(col), "Empname") && !Occurs(Title(col), "Vrdate") ==> shown == Title(col)
  {
    var t := Title(col);
    var shown := ReplaceAll(ReplaceAll(t, "Empname", "Employee Name"), "Vrdate", "Date");
    if !Occurs(t, "Empname") && !Occurs(t, "Vrdate") then
      ReplaceAbsent(t, "Empname", "Employee Name");
      ReplaceAbsent(t, "Vrdate", "Date");
      shown
    else shown
  }

  /** The document before rendering: the title paragraph, the grid of cell texts (header
      row first) and the width of each column. */
  datatype Layout = Layout(title: string, table: seq<seq<string>>, colWidths: seq<real>)

  const Placeholder: string := "No data found"

  /** The columns of the table: the keys of the first row, or the single column "Message"
      when there is no data. */
  function Columns(resultData: seq<Row>): (columns: seq<string>)
    ensures resultData != [] ==> columns == Keys(resultData[0])
    ensures resultData == [] ==> columns == ["Message"]
  {
    if resultData != [] then Keys(resultData[0]) else ["Message"]
  }

  /** `[str(row.get(col, "")) for col in columns]`. */
  function Cells(row: Row, columns: seq<string>): (cells: seq<string>)
    ensures |cells| == |columns|
    ensures forall k | 0 <= k < |columns| :: cells[k] == Get(row, columns[k]).GetOr("")
  {
    seq(|columns|, k requires 0 <= k < |columns| => Get(row, columns[k]).GetOr(""))
  }

  /** The header row: one label per column. */
  function HeaderRow(columns: seq<string>): (cells: seq<string>)
    ensures |cells| == |columns|
    ensures forall k | 0 <= k < |columns| :: cells[k] == HeaderLabel(columns[k])
  {
    seq(|columns|, k requires 0 <= k < |columns| => HeaderLabel(columns[k]))
  }

  /** One row of cells per data row. */
  function BodyRows(resultData: seq<Row>, columns: seq<string>): (rows: seq<seq<string>>)
    ensures |rows| == |resultData|
    ensures forall i | 0 <= i < |resultData| :: rows[i] == Cells(resultData[i], columns)
  {
    seq(|resultData|, i requires 0 <= i < |resultData| => Cells(resultData[i], columns))
  }

  /** `[col_width] * num_columns` with `col_width = total_width / num_columns`, or the whole
      width when there are no columns: `n` equal widths. */
  function ColumnWidths(n: nat, totalWidth: real): (ws: seq<real>)
    ensures |ws| == n
    ensures forall k | 0 <= k < n :: ws[k] == ws[0]
  {
    var width := if n > 0 then totalWidth / n as real else totalWidth;
    seq(n, _ => width)
  }

  function Sum(xs: seq<real>): real
    decreases |xs|
  {
    if xs == [] then 0.0 else xs[0] + Sum(xs[1..])
  }

  /** `n` copies of `w` add up to `n * w`. */
  lemma {:induction false} SumEqual(xs: seq<real>, w: real)
    requires forall k | 0 <= k < |xs| :: xs[k] == w
    ensures Sum(xs) == |xs| as real * w
    decreases |xs|
  {
    if xs != [] {
      SumEqual(xs[1..], w);
    }
  }

  /** The equal widths fill the printable width exactly (in exact arithmetic). */
  lemma WidthsFillPage(n: nat, totalWidth: real)
    requires n > 0
    ensures Sum(ColumnWidths(n, totalWidth)) == totalWidth
  {
    var ws := ColumnWidths(n, totalWidth);
    SumEqual(ws, totalWidth / n as real);
  }

  /** The grid of cell texts: the header row and one row per data row, or the single
      placeholder cell when there is no data. */
  function Table(resultData: seq<Row>): (table: seq<seq<string>>)
    ensures resultData == [] ==> table == [[Placeholder]]
    ensures resultData != [] ==>
      && |table| == 1 + |resultData|
      && table[0] == HeaderRow(Keys(resultData[0]))
      && forall i | 0 <= i < |resultData| :: table[i + 1] == Cells(resultData[i], Keys(resultData[0]))
  {
    if resultData == [] then [[Placeholder]]
    else
      var body := BodyRows(resultData, Keys(resultData[0]));
      assert forall i | 0 <= i < |resultData| :: ([HeaderRow(Keys(resultData[0]))] + body)[i + 1] == body[i];
      [HeaderRow(Keys(resultData[0]))] + body
  }

  /** `generate_pdf_report(user_query, specific_dates, result_data)` up to the layout call.
      `totalWidth` is the printable page width; `specificDates` is accepted and never read. */
  function BuildLayout(userQuery: string, specificDates: Option<string>, resultData: seq<Row>,
                       totalWidth: real): (l: Layout)
    ensures l.title == "Attendance Report<br/>" + userQuery
    ensures l.table == Table(resultData)
    ensures l.colWidths == ColumnWidths(|Columns(resultData)|, totalWidth)
  {
    Layout("Attendance Report<br/>" + userQuery, Table(resultData),
           ColumnWidths(|Columns(resultData)|, totalWidth))
  }

  /** There is one width per column, and no width at all exactly when the first row has
      no keys: the guard against dividing by zero then leaves an empty width list. */
  lemma NoColumnsNoWidths(userQuery: string, specificDates: Option<string>, resultData: seq<Row>,
                          totalWidth: real)
    ensures var l := BuildLayout(userQuery, specificDates, resultData, totalWidth);
            |l.colWidths| == |Columns(resultData)|
            && (l.colWidths == [] <==> resultData != [] && resultData[0] == [])
  {
    if resultData != [] && resultData[0] != [] {
      assert resultData[0][0].0 in Keys(resultData[0]);
    }
  }

  /** The dates passed to the report never influence the layout. */
  lemma DatesNeverRead(userQuery: string, d1: Option<string>, d2: Option<string>,
                       resultData: seq<Row>, totalWidth: real)
    ensures BuildLayout(userQuery, d1, resultData, totalWidth)
         == BuildLayout(userQuery, d2, resultData, totalWidth)
  {
  }

  /** A row that lacks one of the first row's keys shows an empty cell there. */
  lemma MissingKeyIsEmpty(userQuery: string, specificDates: Option<string>, resultData: seq<Row>,
                          totalWidth: real, i: nat, k: nat)
    requires i < |resultData| && k < |resultData[0]|
    requires resultData[0][k].0 !in Keys(resultData[i])
    ensures BuildLayout(userQuery, specificDates, resultData, totalWidth).table[i + 1][k] == ""
  {
  }

  /** Only the first row's keys matter: two data sets with the same first-row keys whose
      rows agree on those keys give the same layout, whatever other keys they carry. */
  lemma ExtraKeysIgnored(userQuery: string, specificDates: Option<string>,
                         data1: seq<Row>, data2: seq<Row>, totalWidth: real)
    requires |data1| == |data2| && data1 != []
    requires Keys(data1[0]) == Keys(data2[0])
    requires forall i, col | 0 <= i < |data1| && col in Keys(data1[0]) ::
               Get(data1[i], col) == Get(data2[i], col)
    ensures BuildLayout(userQuery, specificDates, data1, totalWidth)
         == BuildLayout(userQuery, specificDates, data2, totalWidth)
  {
    var columns := Keys(data1[0]);
    forall i | 0 <= i < |data1| ensures Cells(data1[i], columns) == Cells(data2[i], columns) {
      forall k | 0 <= k < |columns|
        ensures Cells(data1[i], columns)[k] == Cells(data2[i], columns)[k]
      {
        assert columns[k] in columns;
      }
    }
    assert BodyRows(data1, columns) == BodyRows(data2, columns);
  }

  /** `title()` of an ASCII text, checked character by character. */
  lemma TitleIs(s: string, t: string)
    requires |s| == |t| && forall k | 0 <= k < |s| :: TitleRule(s, k) == t[k]
    ensures Title(s) == t
  {
  }

  /** `empName` is shown as "Employee Name". */
  lemma EmpNameLabel()
    ensures HeaderLabel("empName") == "Employee Name"
  {
    var s := "empName";
    forall k | 0 <= k < 7 ensures TitleRule(s, k) == "Empname"[k] {
      assert k == 0 || k == 1 || k == 2 || k == 3 || k == 4 || k == 5 || k == 6;
    }
    TitleIs(s, "Empname");
    var e := "Employee Name";
    assert "Empname"[7..] == [];
    assert ReplaceAll("Empname", "Empname", e) == e;
    NotOccursWithout(e, "Vrdate");
    ReplaceAbsent(e, "Vrdate", "Date");
  }

  /** `vrdate` is shown as "Date". */
  lemma VrdateLabel()
    ensures HeaderLabel("vrdate") == "Date"
  {
    var s := "vrdate";
    forall k | 0 <= k < 6 ensures TitleRule(s, k) == "Vrdate"[k] {
      assert k == 0 || k == 1 || k == 2 || k == 3 || k == 4 || k == 5;
    }
    TitleIs(s, "Vrdate");
    assert "Vrdate"[6..] == [];
    assert ReplaceAll("Vrdate", "Vrdate", "Date") == "Date";
  }

  /** Other columns are only title-cased: `empId` is shown as "Empid". */
  lemma EmpIdLabel()
    ensures HeaderLabel("empId") == "Empid"
  {
    var s := "empId";
    forall k | 0 <= k < 5 ensures TitleRule(s, k) == "Empid"[k] {
      assert k == 0 || k == 1 || k == 2 || k == 3 || k == 4;
    }
    TitleIs(s, "Empid");
  }
}

=== FILE: records.dfy ===
/** Result rows as the program sees them: `dict(row)` for each row of a query result. */
module Records {
  import opened Wrappers

  predicate DistinctKeys(pairs: seq<(string, string)>)
  {
    forall i, j | 0 <= i < j < |pairs| :: pairs[i].0 != pairs[j].0
  }

  /** One row: (column name, value) pairs in column order; a dictionary never repeats a key.
      Values are represented by their `str()` text. */
  type Row = pairs: seq<(string, string)> | DistinctKeys(pairs)

  /** `list(row.keys())`. */
  function Keys(row: Row): (ks: seq<string>)
    ensures |ks| == |row|
    ensures forall k | 0 <= k < |row| :: ks[k] == row[k].0
  {
    seq(|row|, k requires 0 <= k < |row| => row[k].0)
  }

  /** The value bound to `key` among `pairs`, if any. */
  function Lookup(pairs: seq<(string, string)>, key: string): (v: Option<string>)
    ensures v.None? <==> forall k | 0 <= k < |pairs| :: pairs[k].0 != key
    ensures v.Some? ==> exists k | 0 <= k < |pairs| :: pairs[k] == (key, v.value)
    decreases |pairs|
  {
    if pairs == [] then None
    else if pairs[0].0 == key then Some(pairs[0].1)
    else
      var v := Lookup(pairs[1..], key);
      assert forall k | 0 <= k < |pairs| - 1 :: pairs[1..][k] == pairs[k + 1];
      v
  }

  /** `row.get(key)`: the value of `key`, or `None` when the row has no such column. */
  function Get(row: Row, key: string): (v: Option<string>)
    ensures v.None? <==> key !in Keys(row)
    ensures forall k | 0 <= k < |row| && row[k].0 == key :: v == Some(row[k].1)
  {
    Lookup(row, key)
  }
}

=== FILE: report.dfy ===
/** The deterministic parts of `generate_report` (main.py): the choice of dates, the
    clean-up of the generated SQL text and the plain-text table of the result. The language
    model and the database are parameters. */
module Report {
  import opened Wrappers
  import opened Text
  import opened Records
  import DateRange

  // ---------------------------------------------------------------------------
  // Dates

  /** `get_previous_month_dates()`: despite its name, a fixed range. */
  function PreviousMonthDates(): (r: string)
    ensures DateRange.IsRangeText(r)
    ensures r[..10] == "2024-07-01" && r[14..] == "2024-07-31"
  {
    DateRange.RangeText("2024-07-01", "2024-07-31")
  }

  /** `specific_dates or get_previous_month_dates()`: Python's `or` falls back on `None`
      and on the empty string alike. */
  function EffectiveDates(specific: Option<string>): (d: string)
    ensures d != []
    ensures specific.Some? && specific.value != [] ==> d == specific.value
    ensures specific.None? || specific.value == [] ==> d == PreviousMonthDates()
  {
    match specific
    case Some(s) => if s != [] then s else PreviousMonthDates()
    case None => PreviousMonthDates()
  }

  /** A range found in a question is always used as is, since a range text is never empty. */
  lemma ExtractedRangeIsUsed(query: string)
    ensures var x := DateRange.ExtractDateRange(query);
            EffectiveDates(x.range) ==
              if x.range.Some? then x.range.value else PreviousMonthDates()
  {
  }

  // ---------------------------------------------------------------------------
  // Cleaning the generated SQL

  /** `content.strip()`, then `.replace("sql", "")`, then `.replace("```", "")`, then
      `.strip()`. */
  function CleanSql(content: string): (sql: string)
    ensures Stripped(sql)
    ensures !Occurs(sql, "```")
    ensures |sql| <= |content|
  {
    var once := Strip(content);
    var noSql := ReplaceAll(once, "sql", "");
    var noTicks := ReplaceAll(noSql, "```", "");
    RemoveAllShrinks(once, "sql");
    RemoveAllShrinks(noSql, "```");
    NoTicksLeft(noSql);
    StripKeepsNoOccurrence(noTicks, "```");
    Strip(noTicks)
  }

  /** Three backticks in a row at position `k`. */
  predicate TicksAt(s: string, k: int)
  {
    0 <= k && k + 3 <= |s| && s[k] == '`' && s[k + 1] == '`' && s[k + 2] == '`'
  }

  /** A string that does not start with three backticks keeps its first character. */
  lemma KeepsFirst(s: string)
    requires s != [] && !TicksAt(s, 0)
    ensures ReplaceAll(s, "```", "") != [] && ReplaceAll(s, "```", "")[0] == s[0]
  {
  }

  /** After the pass that deletes "```", no three backticks in a row are left: a run of
      `n` backticks is cut down to `n % 3` of them, and the pass never joins two runs. */
  lemma {:induction false} NoTicksLeft(s: string)
    ensures !Occurs(ReplaceAll(s, "```", ""), "```")
    decreases |s|
  {
    var r := ReplaceAll(s, "```", "");
    if |s| < 3 {
      assert r == s;
    } else if s[..3] == "```" {
      assert r == ReplaceAll(s[3..], "```", "");
      NoTicksLeft(s[3..]);
    } else {
      var t := ReplaceAll(s[1..], "```", "");
      NoTicksLeft(s[1..]);
      assert r == [s[0]] + t;
      assert !TicksAt(s, 0);
      if s[0] == '`' {
        // The first three characters are not all backticks, so the rest does not start
        // with two of them once the pass is done.
        if s[1] != '`' {
          KeepsFirst(s[1..]);
        } else {
          assert s[2] != '`';
          if |s| > 3 {
            assert s[1..][..3] != "```" by {
              assert s[1..][..3][1] == s[2];
            }
            assert t == [s[1]] + ReplaceAll(s[2..], "```", "") by {
              assert s[1..][1..] == s[2..];
            }
            KeepsFirst(s[2..]);
          } else {
            assert t == s[1..];
          }
          assert |t| >= 2 && t[1] == s[2];
        }
      }
      assert !TicksAt(r, 0);
      forall k | 0 <= k <= |r| ensures !OccursAt(r, "```", k) {
        if k > 0 && k + 3 <= |r| {
          assert r[k..k + 3] == t[k - 1..k + 2];
          assert !OccursAt(t, "```", k - 1);
        } else if k == 0 {
          TextAtThree(r, "```", 0);
        }
      }
    }
  }

  /** Stripping cannot create an occurrence. */
  lemma StripKeepsNoOccurrence(s: string, pat: string)
    requires !Occurs(s, pat)
    ensures !Occurs(Strip(s), pat)
  {
    var lo := SpaceEnd(s, 0);
    var r := Strip(s);
    if Occurs(r, pat) {
      assert r == s[lo..lo + |r|];
      OccursInSlice(s, pat, lo, lo + |r|);
    }
  }

  /** Clean-up leaves a text alone exactly when it has no surrounding whitespace and
      contains neither "sql" nor "```"; otherwise it gets shorter. */
  lemma CleanSqlFixedIff(content: string)
    ensures CleanSql(content) == content <==>
            Stripped(content) && !Occurs(content, "sql") && !Occurs(content, "```")
  {
    var once := Strip(content);
    var noSql := ReplaceAll(once, "sql", "");
    var noTicks := ReplaceAll(noSql, "```", "");
    RemoveAllShrinks(once, "sql");
    RemoveAllShrinks(noSql, "```");
    if Stripped(content) && !Occurs(content, "sql") && !Occurs(content, "```") {
      StripFixedIff(content);
      ReplaceAbsent(content, "sql", "");
      ReplaceAbsent(content, "```", "");
      StripFixedIff(content);
    } else if CleanSql(content) == content {
      StripFixedIff(content);
    }
  }

  /** Without "sql" and "```", clean-up is only the strip. */
  lemma CleanSqlOnlyStrips(content: string)
    requires !Occurs(Strip(content), "sql") && !Occurs(Strip(content), "```")
    ensures CleanSql(content) == Strip(content)
  {
    var once := Strip(content);
    ReplaceAbsent(once, "sql", "");
    ReplaceAbsent(once, "```", "");
    StripIdempotent(content);
  }

  /** The deletion is case-sensitive: an upper-case "SQL" is kept. */
  lemma UpperSqlKept()
    ensures CleanSql("SQL") == "SQL"
  {
    var s := "SQL";
    assert Strip(s) == s by {
      assert Stripped(s);
      StripFixedIff(s);
    }
    assert !Occurs(s, "sql") by {
      NotOccursWithout(s, "sql");
    }
    assert !Occurs(s, "```") by {
      NotOccursWithout(s, "```");
    }
    CleanSqlOnlyStrips(s);
  }

  /** An occurrence of a three-letter pattern, letter by letter. */
  lemma TextAtThree(s: string, pat: string, i: int)
    requires |pat| == 3
    ensures OccursAt(s, pat, i) <==>
            0 <= i && i + 3 <= |s| && s[i] == pat[0] && s[i + 1] == pat[1] && s[i + 2] == pat[2]
  {
    if 0 <= i && i + 3 <= |s| && s[i] == pat[0] && s[i + 1] == pat[1] && s[i + 2] == pat[2] {
      assert s[i..i + 3] == pat;
    }
  }

  /** A single pass can leave a "sql" behind: deleting the inner "sql" of "ssqlql" joins
      its neighbours into a new one. */
  lemma SqlCanSurvive()
    ensures CleanSql("ssqlql") == "sql"
  {
    var s := "ssqlql";
    assert Strip(s) == s by {
      assert Stripped(s);
      StripFixedIff(s);
    }
    assert ReplaceAll(s, "sql", "") == "sql" by {
      assert s[1..][..3] == "sql" && s[1..][3..] == "ql";
    }
    SqlUntouched();
  }

  /** "sql" has no backticks and no surrounding whitespace, so the rest of the cleanup
      keeps it. */
  lemma SqlUntouched()
    ensures Strip(ReplaceAll("sql", "```", "")) == "sql"
  {
    assert ReplaceAll("sql", "```", "") == "sql";
    assert Stripped("sql");
    StripFixedIff("sql");
  }

  /** "sq```l" holds no "sql" yet. */
  lemma NoSqlBeforeTicks()
    ensures ReplaceAll("sq```l", "sql", "") == "sq```l"
  {
    var s := "sq```l";
    forall i | 0 <= i <= |s| ensures !OccursAt(s, "sql", i) {
      assert i + 3 > |s| || i == 0 || i == 1 || i == 2 || i == 3;
      TextAtThree(s, "sql", i);
    }
    ReplaceAbsent(s, "sql", "");
  }

  /** Deleting the backticks of "sq```l" joins "sql". */
  lemma TicksDeleted()
    ensures ReplaceAll("sq```l", "```", "") == "sql"
  {
    var s := "sq```l";
    assert s[2..][..3] == "```" && s[2..][3..] == "l";
  }

  /** Backticks are deleted after "sql", so they can also join a "sql" together. */
  lemma TicksCanJoinSql()
    ensures CleanSql("sq```l") == "sql"
  {
    var s := "sq```l";
    assert Strip(s) == s by {
      assert Stripped(s);
      StripFixedIff(s);
    }
    NoSqlBeforeTicks();
    TicksDeleted();
    assert Strip("sql") == "sql" by {
      assert Stripped("sql");
      StripFixedIff("sql");
    }
  }

  // ---------------------------------------------------------------------------
  // The text table

  /** The header cells: each column name title-cased. */
  function Titles(columns: seq<string>): (ts: seq<string>)
    ensures |ts| == |columns|
    ensures forall k | 0 <= k < |columns| :: ts[k] == Title(columns[k])
  {
    seq(|columns|, k requires 0 <= k < |columns| => Title(columns[k]))
  }

  /** The separator cells: as many dashes as the column name has characters. */
  function Dashes(columns: seq<string>): (ds: seq<string>)
    ensures |ds| == |columns|
    ensures forall k | 0 <= k < |columns| :: ds[k] == Repeat('-', |columns[k]|)
  {
    seq(|columns|, k requires 0 <= k < |columns| => Repeat('-', |columns[k]|))
  }

  /** `"| " + " | ".join(col.title() for col in columns) + " |\n"`. */
  function HeaderLine(columns: seq<string>): string
  {
    "| " + Join(" | ", Titles(columns)) + " |\n"
  }

  /** `"|-" + "-|-".join("-" * len(col) for col in columns) + "-|\n"`. */
  function SeparatorLine(columns: seq<string>): string
  {
    "|-" + Join("-|-", Dashes(columns)) + "-|\n"
  }

  /** `str(e)` for the `KeyError` raised by `row[key]`: the `repr` of the key. */
  function KeyErrorText(key: string): string
  {
    Repr(key)
  }

  /** A plain key is written between single quotes. */
  lemma KeyErrorSingleQuotes()
    ensures KeyErrorText("emp_id") == "'emp_id'"
  {
    ReprPlain("emp_id");
  }

  /** A key holding a single quote is written between double quotes, as Python does. */
  lemma KeyErrorDoubleQuotes()
    ensures KeyErrorText("it's") == "\"it's\""
  {
    var key := "it's";
    assert key[2] == '\'' && '"' !in key;
    ReprPlain(key);
  }

  /** `detail` is the error of the first column of `columns` that `row` lacks. */
  predicate FirstMissing(row: Row, columns: seq<string>, detail: string)
  {
    exists k | 0 <= k < |columns| ::
      && columns[k] !in Keys(row) && detail == KeyErrorText(columns[k])
      && forall j | 0 <= j < k :: columns[j] in Keys(row)
  }

  /** The first missing column of the tail is the first missing column of the whole when
      the row has the head column. */
  lemma FirstMissingShift(row: Row, columns: seq<string>, detail: string)
    requires columns != [] && columns[0] in Keys(row) && FirstMissing(row, columns[1..], detail)
    ensures FirstMissing(row, columns, detail)
  {
    var k :| 0 <= k < |columns| - 1 && columns[1..][k] !in Keys(row) && detail == KeyErrorText(columns[1..][k])
             && forall j | 0 <= j < k :: columns[1..][j] in Keys(row);
    assert columns[k + 1] == columns[1..][k];
    forall j | 0 <= j < k + 1 ensures columns[j] in Keys(row) {
      if j > 0 { assert columns[j] == columns[1..][j - 1]; }
    }
  }

  /** `str(row[col]) for col in columns`: the values in column order, or the `KeyError` of
      the first column the row lacks. */
  function Values(row: Row, columns: seq<string>): (r: Result<seq<string>>)
    ensures r.Ok? <==> forall k | 0 <= k < |columns| :: columns[k] in Keys(row)
    ensures r.Ok? ==> |r.value| == |columns|
    ensures r.Ok? ==> forall k | 0 <= k < |columns| :: Get(row, columns[k]) == Some(r.value[k])
    ensures r.Err? ==> FirstMissing(row, columns, r.detail)
    decreases |columns|
  {
    if columns == [] then Ok([])
    else
      match Get(row, columns[0])
      case None => Err(KeyErrorText(columns[0]))
      case Some(v) =>
        var rest := Values(row, columns[1..]);
        assert forall k | 0 <= k < |columns| - 1 :: columns[1..][k] == columns[k + 1];
        match rest
        case Err(e) =>
          FirstMissingShift(row, columns, e);
          Err(e)
        case Ok(vs) => Ok([v] + vs)
  }

  /** `"| " + " | ".join(str(row[col]) for col in columns) + " |\n"`. */
  function RowLine(row: Row, columns: seq<string>): (r: Result<string>)
    ensures r.Ok? <==> Values(row, columns).Ok?
    ensures r.Err? ==> FirstMissing(row, columns, r.detail)
  {
    match Values(row, columns)
    case Err(e) => Err(e)
    case Ok(vs) => Ok("| " + Join(" | ", vs) + " |\n")
  }

  /** `detail` is the error of the first row of `rows` that lacks a column: the `KeyError`
      text of that row's first missing column. */
  predicate FirstBadRow(rows: seq<Row>, columns: seq<string>, detail: string)
  {
    exists i | 0 <= i < |rows| ::
      && (forall j | 0 <= j < i :: RowLine(rows[j], columns).Ok?)
      && FirstMissing(rows[i], columns, detail)
  }

  /** The first bad row of the tail is the first bad row of the whole when the head row
      is complete. */
  lemma FirstBadRowShift(rows: seq<Row>, columns: seq<string>, detail: string)
    requires rows != [] && RowLine(rows[0], columns).Ok? && FirstBadRow(rows[1..], columns, detail)
    ensures FirstBadRow(rows, columns, detail)
  {
    var i :| 0 <= i < |rows| - 1 && (forall j | 0 <= j < i :: RowLine(rows[1..][j], columns).Ok?)
             && FirstMissing(rows[1..][i], columns, detail);
    assert rows[i + 1] == rows[1..][i];
    forall j | 0 <= j < i + 1 ensures RowLine(rows[j], columns).Ok? {
      if j > 0 { assert rows[j] == rows[1..][j - 1]; }
    }
  }

  /** The lines of all rows, in order; the first row that lacks a column raises. */
  function RowLines(rows: seq<Row>, columns: seq<string>): (r: Result<string>)
    ensures r.Ok? <==> forall i | 0 <= i < |rows| :: RowLine(rows[i], columns).Ok?
    ensures r.Err? ==> FirstBadRow(rows, columns, r.detail)
    decreases |rows|
  {
    if rows == [] then Ok("")
    else
      match RowLine(rows[0], columns)
      case Err(e) => Err(e)
      case Ok(line) =>
        var rest := RowLines(rows[1..], columns);
        assert forall i | 0 <= i < |rows| - 1 :: rows[1..][i] == rows[i + 1];
        match rest
        case Err(e) =>
          FirstBadRowShift(rows, columns, e);
          Err(e)
        case Ok(more) => Ok(line + more)
  }

  /** `f"Report for: {user_query}\nDates: {dates}\n\n"`. */
  function Preamble(userQuery: string, dates: string): string
  {
    "Report for: " + userQuery + "\nDates: " + dates + "\n\n"
  }

  /** The report text for a non-empty result: preamble, header, separator and one line per
      row; it fails exactly when some row lacks one of the columns. */
  function FormatReport(userQuery: string, dates: string, columns: seq<string>, rows: seq<Row>)
    : (r: Result<string>)
    ensures r.Ok? <==> forall i, k | 0 <= i < |rows| && 0 <= k < |columns| :: columns[k] in Keys(rows[i])
    ensures r.Ok? ==> StartsWith(r.value, Preamble(userQuery, dates) + HeaderLine(columns) + SeparatorLine(columns))
    ensures r.Err? ==> FirstBadRow(rows, columns, r.detail)
  {
    match RowLines(rows, columns)
    case Err(e) => Err(e)
    case Ok(body) =>
      var head := Preamble(userQuery, dates) + HeaderLine(columns) + SeparatorLine(columns);
      assert (head + body)[..|head|] == head;
      Ok(head + body)
  }

  /** The header line cell by cell: `|`, then ` Title(col) |` for each column. */
  lemma HeaderCells(columns: seq<string>)
    requires columns != []
    ensures HeaderLine(columns) == "|" + Concat(Framed(" ", Titles(columns), " |")) + "\n"
  {
    var ts := Titles(columns);
    JoinAsCells(" ", " |", ts);
    assert " |" + " " == " | ";
    assert "| " + Join(" | ", ts) + " |\n" == "|" + (" " + Join(" | ", ts) + " |") + "\n";
  }

  /** The separator line cell by cell: `|`, then `len(col) + 2` dashes and `|` for each
      column. */
  lemma SeparatorCells(columns: seq<string>)
    requires columns != []
    ensures SeparatorLine(columns) ==
      "|" + Concat(seq(|columns|, k requires 0 <= k < |columns| => Repeat('-', |columns[k]| + 2) + "|")) + "\n"
  {
    var ds := Dashes(columns);
    JoinAsCells("-", "-|", ds);
    assert "-|" + "-" == "-|-";
    assert "|-" + Join("-|-", ds) + "-|\n" == "|" + ("-" + Join("-|-", ds) + "-|") + "\n";
    var cells := seq(|columns|, k requires 0 <= k < |columns| => Repeat('-', |columns[k]| + 2) + "|");
    forall k | 0 <= k < |columns| ensures Framed("-", ds, "-|")[k] == cells[k] {
      assert "-" + ds[k] + "-|" == Repeat('-', |columns[k]| + 2) + "|";
    }
    assert Framed("-", ds, "-|") == cells;
  }

  /** A row line cell by cell: `|`, then ` value |` for each column, in column order. */
  lemma RowCells(row: Row, columns: seq<string>)
    requires columns != [] && RowLine(row, columns).Ok?
    ensures RowLine(row, columns).value
         == "|" + Concat(Framed(" ", Values(row, columns).value, " |")) + "\n"
  {
    var vs := Values(row, columns).value;
    JoinAsCells(" ", " |", vs);
    assert " |" + " " == " | ";
    assert "| " + Join(" | ", vs) + " |\n" == "|" + (" " + Join(" | ", vs) + " |") + "\n";
  }

  /** The line of each row, given that every row has every column. */
  function LineTexts(rows: seq<Row>, columns: seq<string>): (lines: seq<string>)
    requires forall i | 0 <= i < |rows| :: RowLine(rows[i], columns).Ok?
    ensures |lines| == |rows|
    ensures forall i | 0 <= i < |rows| :: lines[i] == RowLine(rows[i], columns).value
  {
    seq(|rows|, i requires 0 <= i < |rows| && RowLine(rows[i], columns).Ok? =>
      RowLine(rows[i], columns).value)
  }

  /** The row lines come one per row, in the order of the rows. */
  lemma {:induction false} RowLinesInOrder(rows: seq<Row>, columns: seq<string>)
    requires RowLines(rows, columns).Ok?
    ensures RowLines(rows, columns).value == Concat(LineTexts(rows, columns))
    decreases |rows|
  {
    if rows != [] {
      var first, rest := RowLine(rows[0], columns).value, rows[1..];
      assert forall i | 0 <= i < |rest| :: rest[i] == rows[i + 1];
      RowLinesInOrder(rest, columns);
      assert LineTexts(rows, columns) == [first] + LineTexts(rest, columns);
    }
  }

  /** The whole report: preamble, header line, separator line, then the row lines in the
      order of the rows. */
  lemma ReportText(userQuery: string, dates: string, columns: seq<string>, rows: seq<Row>)
    requires FormatReport(userQuery, dates, columns, rows).Ok?
    ensures FormatReport(userQuery, dates, columns, rows).value
         == Preamble(userQuery, dates) + HeaderLine(columns) + SeparatorLine(columns)
            + Concat(LineTexts(rows, columns))
  {
    RowLinesInOrder(rows, columns);
  }

  /** The header line and the separator line are equally long, because title-casing keeps
      the length of each column name. */
  lemma HeaderMatchesSeparator(columns: seq<string>)
    ensures |HeaderLine(columns)| == |SeparatorLine(columns)|
  {
    JoinSameLength(" | ", Titles(columns), "-|-", Dashes(columns));
  }

  /** A string without `c` that ends in `c` counts exactly one `c`. */
  lemma CountLine(body: string, c: char)
    requires c !in body
    ensures CountChar(body + [c], c) == 1
  {
    CountCharAppend(body, [c], c);
    CountCharAbsent(body, c);
    assert [c][1..] == [];
  }

  /** Every row line holds exactly one line break, at its end, when no value holds one. */
  lemma RowLineBreaks(row: Row, columns: seq<string>)
    requires RowLine(row, columns).Ok?
    requires forall k | 0 <= k < |row| :: '\n' !in row[k].1
    ensures CountChar(RowLine(row, columns).value, '\n') == 1
  {
    var vs := Values(row, columns).value;
    forall k | 0 <= k < |vs| ensures '\n' !in vs[k] {
      var j :| 0 <= j < |row| && row[j] == (columns[k], vs[k]);
    }
    JoinExcludes(" | ", vs, '\n');
    CountLine("| " + Join(" | ", vs) + " |", '\n');
    assert RowLine(row, columns).value == ("| " + Join(" | ", vs) + " |") + "\n";
  }

  /** One line per row. */
  lemma {:induction false} RowLinesBreaks(rows: seq<Row>, columns: seq<string>)
    requires RowLines(rows, columns).Ok?
    requires forall i, k | 0 <= i < |rows| && 0 <= k < |rows[i]| :: '\n' !in rows[i][k].1
    ensures CountChar(RowLines(rows, columns).value, '\n') == |rows|
    decreases |rows|
  {
    if rows != [] {
      RowLineBreaks(rows[0], columns);
      RowLinesBreaks(rows[1..], columns);
      CountCharAppend(RowLine(rows[0], columns).value, RowLines(rows[1..], columns).value, '\n');
    }
  }

  /** Title-casing never introduces a line break. */
  lemma TitleNoBreak(c: string)
    requires '\n' !in c
    ensures '\n' !in Title(c)
  {
  }

  /** The preamble holds three line breaks. */
  lemma PreambleBreaks(userQuery: string, dates: string)
    requires '\n' !in userQuery && '\n' !in dates
    ensures CountChar(Preamble(userQuery, dates), '\n') == 3
  {
    var p1, p2 := "Report for: " + userQuery, "Dates: " + dates;
    var l1, l2 := p1 + "\n", p2 + "\n";
    CountLine(p1, '\n');
    CountLine(p2, '\n');
    CountCharAppend(l1, l2, '\n');
    CountCharAppend(l1 + l2, "\n", '\n');
    assert CountChar("\n", '\n') == 1;
    assert Preamble(userQuery, dates) == (l1 + l2) + "\n";
  }

  /** The header line holds one line break, at its end. */
  lemma HeaderBreaks(columns: seq<string>)
    requires forall k | 0 <= k < |columns| :: '\n' !in columns[k]
    ensures CountChar(HeaderLine(columns), '\n') == 1
  {
    var ts := Titles(columns);
    forall k | 0 <= k < |ts| ensures '\n' !in ts[k] {
      TitleNoBreak(columns[k]);
    }
    JoinExcludes(" | ", ts, '\n');
    CountLine("| " + Join(" | ", ts) + " |", '\n');
    assert HeaderLine(columns) == ("| " + Join(" | ", ts) + " |") + "\n";
  }

  /** The separator line holds one line break, at its end. */
  lemma SeparatorBreaks(columns: seq<string>)
    ensures CountChar(SeparatorLine(columns), '\n') == 1
  {
    var ds := Dashes(columns);
    JoinExcludes("-|-", ds, '\n');
    CountLine("|-" + Join("-|-", ds) + "-|", '\n');
    assert SeparatorLine(columns) == ("|-" + Join("-|-", ds) + "-|") + "\n";
  }

  /** The text report has 5 + `len(rows)` line breaks: three in the preamble, one after the
      header, one after the separator and one per row, as long as the question, the dates,
      the column names and the values hold none. */
  lemma ReportLineBreaks(userQuery: string, dates: string, columns: seq<string>, rows: seq<Row>)
    requires FormatReport(userQuery, dates, columns, rows).Ok?
    requires '\n' !in userQuery && '\n' !in dates
    requires forall k | 0 <= k < |columns| :: '\n' !in columns[k]
    requires forall i, k | 0 <= i < |rows| && 0 <= k < |rows[i]| :: '\n' !in rows[i][k].1
    ensures CountChar(FormatReport(userQuery, dates, columns, rows).value, '\n') == 5 + |rows|
  {
    var body := RowLines(rows, columns).value;
    var pre, head, sep := Preamble(userQuery, dates), HeaderLine(columns), SeparatorLine(columns);
    RowLinesBreaks(rows, columns);
    PreambleBreaks(userQuery, dates);
    HeaderBreaks(columns);
    SeparatorBreaks(columns);
    CountCharAppend(pre, head, '\n');
    CountCharAppend(pre + head, sep, '\n');
    CountCharAppend(pre + head + sep, body, '\n');
    assert FormatReport(userQuery, dates, columns, rows).value == pre + head + sep + body;
  }

  // ---------------------------------------------------------------------------
  // generate_report

  /** What the database returns for a query: `result.keys()` and `dict(row)` per row. */
  datatype Execution = Execution(columns: seq<string>, rows: seq<Row>)

  /** `(report, result_data)` as returned by `generate_report`. */
  datatype ReportOutput = ReportOutput(text: string, data: seq<Row>)

  const ErrorPrefix: string := "Error generating report: "
  const NoData: string := "No data found"

  /** The output of the `except` branch. */
  function Failed(detail: string): (out: ReportOutput)
    ensures StartsWith(out.text, ErrorPrefix) && out.data == []
  {
    var text := ErrorPrefix + detail;
    assert text[..|ErrorPrefix|] == ErrorPrefix;
    ReportOutput(text, [])
  }

  /** `generate_report(user_query, specific_dates)`. The language model is `complete`,
      which maps the dates and the question to the raw completion text or raises; the
      database is `execute`, which runs a SQL text or raises. */
  function GenerateReport(userQuery: string, specificDates: Option<string>,
                          complete: (string, string) -> Result<string>,
                          execute: string -> Result<Execution>): (out: ReportOutput)
    ensures out.text != []
    ensures StartsWith(out.text, ErrorPrefix) ==> out.data == []
    ensures out.data == [] ==> out.text == NoData || StartsWith(out.text, ErrorPrefix)
    ensures out.data != [] ==>
      var dates := EffectiveDates(specificDates);
      && complete(dates, userQuery).Ok?
      && execute(CleanSql(complete(dates, userQuery).value)).Ok?
      && out.data == execute(CleanSql(complete(dates, userQuery).value)).value.rows
      && StartsWith(out.text, Preamble(userQuery, dates))
    ensures out.data != [] ==>
      var dates := EffectiveDates(specificDates);
      var x := execute(CleanSql(complete(dates, userQuery).value)).value;
      && FormatReport(userQuery, dates, x.columns, x.rows).Ok?
      && out.text == FormatReport(userQuery, dates, x.columns, x.rows).value
  {
    var dates := EffectiveDates(specificDates);
    match complete(dates, userQuery)
    case Err(e) => Failed(e)
    case Ok(content) =>
      match execute(CleanSql(content))
      case Err(e) => Failed(e)
      case Ok(result) =>
        if result.rows == [] then ReportOutput(NoData, [])
        else
          match FormatReport(userQuery, dates, result.columns, result.rows)
          case Err(e) => Failed(e)
          case Ok(text) =>
            var head := Preamble(userQuery, dates);
            assert text[..|head|] == head by {
              var full := head + HeaderLine(result.columns) + SeparatorLine(result.columns);
              assert text[..|full|] == full;
              assert full[..|head|] == head;
            }
            assert text[0] == head[0] == 'R' != ErrorPrefix[0];
            ReportOutput(text, result.rows)
  }

  /** What each failure carries: the exception text of the model or of the database, or
      the `KeyError` text of the first row that lacks a column, behind the error prefix. */
  lemma GenerateReportFailures(userQuery: string, specificDates: Option<string>,
                               complete: (string, string) -> Result<string>,
                               execute: string -> Result<Execution>)
    ensures var out := GenerateReport(userQuery, specificDates, complete, execute);
            var c := complete(EffectiveDates(specificDates), userQuery);
            c.Err? ==> out == Failed(c.detail)
    ensures var out := GenerateReport(userQuery, specificDates, complete, execute);
            var c := complete(EffectiveDates(specificDates), userQuery);
            var x := if c.Ok? then execute(CleanSql(c.value)) else Ok(Execution([], []));
            x.Err? ==> out == Failed(x.detail)
    ensures var out := GenerateReport(userQuery, specificDates, complete, execute);
            var dates := EffectiveDates(specificDates);
            var c := complete(dates, userQuery);
            var x := if c.Ok? then execute(CleanSql(c.value)) else Err("");
            var f := if x.Ok? then FormatReport(userQuery, dates, x.value.columns, x.value.rows) else Ok("");
            x.Ok? && x.value.rows != [] && f.Err? ==>
              out == Failed(f.detail) && FirstBadRow(x.value.rows, x.value.columns, f.detail)
  {
  }

  /** The report text starts with the error prefix exactly when the model, the database or
      the formatting of a non-empty result raised. */
  lemma GenerateReportFailsIff(userQuery: string, specificDates: Option<string>,
                               complete: (string, string) -> Result<string>,
                               execute: string -> Result<Execution>)
    ensures var dates := EffectiveDates(specificDates);
            var c := complete(dates, userQuery);
            var x := if c.Ok? then execute(CleanSql(c.value)) else Err("");
            StartsWith(GenerateReport(userQuery, specificDates, complete, execute).text, ErrorPrefix)
            <==> c.Err? || x.Err? ||
                 (x.value.rows != [] && FormatReport(userQuery, dates, x.value.columns, x.value.rows).Err?)
  {
    var dates := EffectiveDates(specificDates);
    var c := complete(dates, userQuery);
    if c.Ok? && execute(CleanSql(c.value)).Ok? {
      var x := execute(CleanSql(c.value)).value;
      if x.rows == [] {
        assert NoData[0] != ErrorPrefix[0];
      }
    }
  }

  /** "No data found" comes back exactly when the query ran and returned no rows. */
  lemma GenerateReportNoDataIff(userQuery: string, specificDates: Option<string>,
                                complete: (string, string) -> Result<string>,
                                execute: string -> Result<Execution>)
    ensures var dates := EffectiveDates(specificDates);
            var c := complete(dates, userQuery);
            GenerateReport(userQuery, specificDates, complete, execute) == ReportOutput(NoData, [])
            <==> c.Ok? && execute(CleanSql(c.value)).Ok? && execute(CleanSql(c.value)).value.rows == []
  {
    var out := GenerateReport(userQuery, specificDates, complete, execute);
    if StartsWith(out.text, ErrorPrefix) {
      assert out.text[0] == 'E' != NoData[0];
    }
  }
}

=== FILE: text.dfy ===
/** The handful of Python `str` operations the program relies on, over `seq<char>`:
    `isspace`, `strip`, `replace`, `title`, `join`, `repr` and `*` (repetition). */
module Text {

  /** `str.isspace` restricted to code points below 128: tab, line feed, vertical tab,
      form feed, carriage return (9..13), the information separators 0x1C..0x1F, and space.
      Python's `strip()` and the regular-expression class `\s` both use this test. */
  predicate IsSpace(c: char)
  {
    c == ' ' || ('\t' <= c <= '\r') || ('\U{1C}' <= c <= '\U{1F}')
  }

  /** Every character of `s` at positions `lo` up to (not including) `hi` is whitespace. */
  predicate SpaceBetween(s: string, lo: int, hi: int)
  {
    forall k | lo <= k < hi :: 0 <= k < |s| && IsSpace(s[k])
  }

  predicate AllSpace(s: string)
  {
    SpaceBetween(s, 0, |s|)
  }

  /** No leading and no trailing whitespace. */
  predicate Stripped(s: string)
  {
    s == [] || (!IsSpace(s[0]) && !IsSpace(s[|s| - 1]))
  }

  /** End of the run of whitespace that starts at position `i` (the greedy `\s*`). */
  function SpaceEnd(s: string, i: nat): (j: nat)
    requires i <= |s|
    ensures i <= j <= |s| && SpaceBetween(s, i, j) && (j == |s| || !IsSpace(s[j]))
    decreases |s| - i
  {
    if i < |s| && IsSpace(s[i]) then SpaceEnd(s, i + 1) else i
  }

  /** Start of the run of whitespace that ends just before position `j`. */
  function SpaceStart(s: string, j: nat): (i: nat)
    requires j <= |s|
    ensures i <= j && SpaceBetween(s, i, j) && (i == 0 || !IsSpace(s[i - 1]))
    decreases j
  {
    if j > 0 && IsSpace(s[j - 1]) then SpaceStart(s, j - 1) else j
  }

  /** The greedy run is the only whitespace run from `i` that is followed by a non-space
      character or by the end of the string. */
  lemma SpaceEndUnique(s: string, i: nat, j: nat)
    requires i <= j <= |s| && SpaceBetween(s, i, j) && (j == |s| || !IsSpace(s[j]))
    ensures SpaceEnd(s, i) == j
  {
  }

  /** `s.strip()`: `s` without its leading and trailing whitespace. */
  function Strip(s: string): (r: string)
    ensures Stripped(r)
    ensures SpaceEnd(s, 0) + |r| <= |s| && r == s[SpaceEnd(s, 0)..SpaceEnd(s, 0) + |r|]
    ensures SpaceBetween(s, SpaceEnd(s, 0) + |r|, |s|)
  {
    var lo := SpaceEnd(s, 0);
    var hi := SpaceStart(s, |s|);
    if hi <= lo then [] else s[lo..hi]
  }

  /** `strip()` leaves nothing exactly when the string is all whitespace. */
  lemma StripEmptyIff(s: string)
    ensures Strip(s) == [] <==> AllSpace(s)
  {
  }

  /** `strip()` is the identity exactly on strings that have no whitespace at either end. */
  lemma StripFixedIff(s: string)
    ensures Strip(s) == s <==> Stripped(s)
  {
    if Stripped(s) && s != [] {
      assert SpaceEnd(s, 0) == 0;
      assert SpaceStart(s, |s|) == |s|;
    }
  }

  /** A stretch that starts and ends with a non-space character survives stripping intact. */
  lemma StripKeepsInner(s: string, i: nat, e: nat)
    requires i < e <= |s| && !IsSpace(s[i]) && !IsSpace(s[e - 1])
    ensures Occurs(Strip(s), s[i..e])
  {
    var lo, r, t := SpaceEnd(s, 0), Strip(s), s[i..e];
    assert lo <= i;
    assert e <= lo + |r|;
    forall k | 0 <= k < |t| ensures r[i - lo + k] == t[k] {
      assert r[i - lo + k] == s[i + k];
    }
    assert OccursAt(r, t, i - lo);
  }

  /** Stripping twice is stripping once. */
  lemma StripIdempotent(s: string)
    ensures Strip(Strip(s)) == Strip(s)
  {
    StripFixedIff(Strip(s));
  }

  // ---------------------------------------------------------------------------
  // Occurrences and `str.replace`

  predicate OccursAt(s: string, pat: string, i: int)
  {
    0 <= i && i + |pat| <= |s| && s[i..i + |pat|] == pat
  }

  predicate Occurs(s: string, pat: string)
  {
    exists i | 0 <= i <= |s| :: OccursAt(s, pat, i)
  }

  /** `s.replace(pat, rep)`: every occurrence found by a left-to-right scan that resumes
      after each replaced occurrence is replaced; occurrences are never overlapping. */
  function ReplaceAll(s: string, pat: string, rep: string): (r: string)
    requires pat != []
    ensures rep == pat ==> r == s
    ensures |rep| <= |pat| ==> |r| <= |s|
    decreases |s|
  {
    if |s| < |pat| then s
    else if s[..|pat|] == pat then rep + ReplaceAll(s[|pat|..], pat, rep)
    else [s[0]] + ReplaceAll(s[1..], pat, rep)
  }

  /** Occurrences in a suffix are the occurrences in the whole string, shifted. */
  lemma OccursShift(s: string, pat: string, d: nat, i: int)
    requires d <= |s| && 0 <= i
    ensures OccursAt(s[d..], pat, i) <==> OccursAt(s, pat, i + d)
  {
    if i + d + |pat| <= |s| {
      var a, b := s[d..][i..i + |pat|], s[i + d..i + d + |pat|];
      forall k | 0 <= k < |pat| ensures a[k] == b[k] {
      }
      assert a == b;
    }
  }

  /** An occurrence in a slice is an occurrence in the whole string. */
  lemma OccursInSlice(s: string, pat: string, lo: nat, hi: nat)
    requires lo <= hi <= |s| && Occurs(s[lo..hi], pat)
    ensures Occurs(s, pat)
  {
    var i :| 0 <= i <= |s[lo..hi]| && OccursAt(s[lo..hi], pat, i);
    forall k | 0 <= k < |pat| ensures s[i + lo..i + lo + |pat|][k] == pat[k] {
      assert pat[k] == s[lo..hi][i..i + |pat|][k];
    }
    assert OccursAt(s, pat, i + lo);
  }

  /** A pattern whose first character does not appear in `s` does not occur in it. */
  lemma NotOccursWithout(s: string, pat: string)
    requires pat != [] && pat[0] !in s
    ensures !Occurs(s, pat)
  {
    forall i | 0 <= i <= |s| ensures !OccursAt(s, pat, i) {
    }
  }

  /** Replacing a pattern that does not occur changes nothing. */
  lemma {:induction false} ReplaceAbsent(s: string, pat: string, rep: string)
    requires pat != [] && !Occurs(s, pat)
    ensures ReplaceAll(s, pat, rep) == s
    decreases |s|
  {
    if |s| >= |pat| {
      assert !OccursAt(s, pat, 0);
      forall i | 0 <= i ensures !OccursAt(s[1..], pat, i) {
        OccursShift(s, pat, 1, i);
      }
      ReplaceAbsent(s[1..], pat, rep);
    }
  }

  /** Deleting every occurrence of `pat` never lengthens the string, and shortens it
      as soon as `pat` occurs anywhere. */
  lemma {:induction false} RemoveAllShrinks(s: string, pat: string)
    requires pat != []
    ensures |ReplaceAll(s, pat, "")| <= |s|
    ensures Occurs(s, pat) ==> |ReplaceAll(s, pat, "")| < |s|
    decreases |s|
  {
    if |s| < |pat| {
      assert forall i :: !OccursAt(s, pat, i);
    } else if s[..|pat|] == pat {
      RemoveAllShrinks(s[|pat|..], pat);
    } else {
      RemoveAllShrinks(s[1..], pat);
      if Occurs(s, pat) {
        var i :| 0 <= i <= |s| && OccursAt(s, pat, i);
        OccursShift(s, pat, 1, i - 1);
        assert OccursAt(s[1..], pat, i - 1);
      }
    }
  }

  /** Deleting a pattern is the identity exactly when the pattern does not occur. */
  lemma RemoveAllIdentityIff(s: string, pat: string)
    requires pat != []
    ensures ReplaceAll(s, pat, "") == s <==> !Occurs(s, pat)
  {
    RemoveAllShrinks(s, pat);
    if !Occurs(s, pat) {
      ReplaceAbsent(s, pat, "");
    }
  }

  // ---------------------------------------------------------------------------
  // ASCII case

  predicate IsLetter(c: char)
  {
    'a' <= c <= 'z' || 'A' <= c <= 'Z'
  }

  function Upper(c: char): char
  {
    if 'a' <= c <= 'z' then (c as int - 32) as char else c
  }

  function Lower(c: char): char
  {
    if 'A' <= c <= 'Z' then (c as int + 32) as char else c
  }

  /** Equality under ASCII case folding (the regular-expression flag IGNORECASE). */
  predicate EqualsIgnoreCase(a: string, b: string)
  {
    |a| == |b| && forall k | 0 <= k < |a| :: Lower(a[k]) == Lower(b[k])
  }

  /** `str.title` of the rest of a string, given whether the character before it was a letter. */
  function TitleAfter(s: string, afterLetter: bool): (r: string)
    ensures |r| == |s|
    decreases |s|
  {
    if s == [] then []
    else
      var c := if !IsLetter(s[0]) then s[0] else if afterLetter then Lower(s[0]) else Upper(s[0]);
      [c] + TitleAfter(s[1..], IsLetter(s[0]))
  }

  /** The title-case rule character by character: a letter is upper-cased exactly when the
      character before it is not a letter, every other letter is lower-cased, and
      non-letters are kept. */
  function TitleRule(s: string, k: nat): char
    requires k < |s|
  {
    if !IsLetter(s[k]) then s[k]
    else if k > 0 && IsLetter(s[k - 1]) then Lower(s[k])
    else Upper(s[k])
  }

  /** Character `k` of the scan, by induction on `k`. */
  lemma {:induction false} TitleAfterRule(s: string, afterLetter: bool, k: nat)
    requires k < |s|
    ensures TitleAfter(s, afterLetter)[k] ==
      (if !IsLetter(s[k]) then s[k]
       else if (if k == 0 then afterLetter else IsLetter(s[k - 1])) then Lower(s[k])
       else Upper(s[k]))
    decreases k
  {
    if k > 0 {
      TitleAfterRule(s[1..], IsLetter(s[0]), k - 1);
    }
  }

  /** `str.title` on ASCII text, scanning left to right as CPython does; the scan agrees
      with the character-by-character rule. */
  function Title(s: string): (r: string)
    ensures |r| == |s|
    ensures forall k | 0 <= k < |s| :: r[k] == TitleRule(s, k)
  {
    TitleFollowsRule(s);
    TitleAfter(s, false)
  }

  lemma TitleFollowsRule(s: string)
    ensures forall k | 0 <= k < |s| :: TitleAfter(s, false)[k] == TitleRule(s, k)
  {
    forall k | 0 <= k < |s| ensures TitleAfter(s, false)[k] == TitleRule(s, k) {
      TitleAfterRule(s, false, k);
    }
  }

  /** Title-casing an already title-cased string changes nothing. */
  lemma TitleIdempotent(s: string)
    ensures Title(Title(s)) == Title(s)
  {
    var t := Title(s);
    forall k | 0 <= k < |t| ensures Title(t)[k] == t[k] {
      assert IsLetter(t[k]) == IsLetter(s[k]);
      if k > 0 { assert IsLetter(t[k - 1]) == IsLetter(s[k - 1]); }
    }
  }

  // ---------------------------------------------------------------------------
  // repr of a string

  /** The quote `repr` puts around a string: a single quote, unless the string holds a
      single quote and no double quote. */
  function ReprQuote(s: string): char
  {
    if '\'' in s && '"' !in s then '"' else '\''
  }

  function HexDigit(n: nat): char
    requires n < 16
  {
    if n < 10 then ('0' as int + n) as char else ('a' as int + n - 10) as char
  }

  function HexValue(c: char): (n: nat)
    ensures n < 16
  {
    if '0' <= c <= '9' then c as int - '0' as int
    else if 'a' <= c <= 'f' then c as int - 'a' as int + 10
    else 0
  }

  /** A character that `repr` writes as a backslash escape inside the quotes `q`. */
  predicate NeedsEscape(c: char, q: char)
  {
    c == '\\' || c == q || c < ' ' || c == '\U{7F}'
  }

  /** How `repr` writes one character inside the quotes `q`: the backslash and the quote
      get a backslash, tab, line feed and carriage return their letter escapes, the other
      ASCII control characters `\xhh`, and everything else is kept. */
  function EscapeChar(c: char, q: char): (r: string)
    ensures NeedsEscape(c, q) ==> 2 <= |r| && r[0] == '\\'
    ensures !NeedsEscape(c, q) ==> r == [c]
  {
    if c == '\\' || c == q then ['\\', c]
    else if c == '\t' then "\\t"
    else if c == '\n' then "\\n"
    else if c == '\r' then "\\r"
    else if c < ' ' || c == '\U{7F}' then ['\\', 'x', HexDigit(c as int / 16), HexDigit(c as int % 16)]
    else [c]
  }

  /** The characters of `s` as `repr` writes them inside the quotes `q`. */
  function Escape(s: string, q: char): (r: string)
    ensures |s| <= |r|
    decreases |s|
  {
    if s == [] then [] else EscapeChar(s[0], q) + Escape(s[1..], q)
  }

  /** `repr(s)` for a string: the escaped characters between the chosen quotes. */
  function Repr(s: string): (r: string)
    ensures |s| + 2 <= |r| && r[0] == ReprQuote(s) && r[|r| - 1] == ReprQuote(s)
  {
    var q := ReprQuote(s);
    [q] + Escape(s, q) + [q]
  }

  /** The character a backslash escape `\c` stands for. */
  function Unescaped(c: char): char
  {
    if c == 't' then '\t' else if c == 'n' then '\n' else if c == 'r' then '\r' else c
  }

  /** Reads an escaped text back: `\xhh`, `\t`, `\n`, `\r`, and a backslash before any other
      character stands for that character. */
  function Unescape(t: string): string
    decreases |t|
  {
    if t == [] then []
    else if t[0] == '\\' && 4 <= |t| && t[1] == 'x' then
      [(HexValue(t[2]) * 16 + HexValue(t[3])) as char] + Unescape(t[4..])
    else if t[0] == '\\' && 2 <= |t| then [Unescaped(t[1])] + Unescape(t[2..])
    else [t[0]] + Unescape(t[1..])
  }

  lemma HexRoundTrip(n: nat)
    requires n < 16
    ensures HexValue(HexDigit(n)) == n
  {
  }

  /** One escaped character reads back as itself, whatever follows it. */
  lemma UnescapeChar(c: char, q: char, rest: string)
    requires q == '\'' || q == '"'
    ensures Unescape(EscapeChar(c, q) + rest) == [c] + Unescape(rest)
  {
    var t := EscapeChar(c, q) + rest;
    if NeedsEscape(c, q) && !(c == '\\' || c == q || c == '\t' || c == '\n' || c == '\r') {
      var hi, lo := c as int / 16, c as int % 16;
      HexRoundTrip(hi);
      HexRoundTrip(lo);
      assert t[4..] == rest;
    } else if NeedsEscape(c, q) {
      assert t[2..] == rest;
    } else {
      assert t[1..] == rest;
    }
  }

  /** Reading back an escaped text gives the text. */
  lemma {:induction false} UnescapeEscape(s: string, q: char)
    requires q == '\'' || q == '"'
    ensures Unescape(Escape(s, q)) == s
    decreases |s|
  {
    if s != [] {
      UnescapeChar(s[0], q, Escape(s[1..], q));
      UnescapeEscape(s[1..], q);
    }
  }

  /** `repr` loses nothing: the text between its quotes reads back as the string. */
  lemma ReprRoundTrip(s: string)
    ensures var r := Repr(s); Unescape(r[1..|r| - 1]) == s
  {
    var q := ReprQuote(s);
    var r := Repr(s);
    assert r[1..|r| - 1] == Escape(s, q);
    UnescapeEscape(s, q);
  }

  /** A text with nothing to escape is copied between the quotes. */
  lemma {:induction false} EscapePlain(s: string, q: char)
    requires forall k | 0 <= k < |s| :: !NeedsEscape(s[k], q)
    ensures Escape(s, q) == s
    decreases |s|
  {
    if s != [] {
      EscapePlain(s[1..], q);
    }
  }

  /** `repr` of a string without backslashes, control characters or both kinds of quote is
      the string between quotes; the quote is a double quote exactly when the string holds
      a single quote. */
  lemma ReprPlain(s: string)
    requires forall k | 0 <= k < |s| :: s[k] != '\\' && ' ' <= s[k] && s[k] != '\U{7F}'
    requires !('\'' in s && '"' in s)
    ensures var q := if '\'' in s then '"' else '\''; Repr(s) == [q] + s + [q]
  {
    var q := ReprQuote(s);
    forall k | 0 <= k < |s| ensures !NeedsEscape(s[k], q) {
      assert s[k] in s;
    }
    EscapePlain(s, q);
  }

  // ---------------------------------------------------------------------------
  // Joining and repetition

  /** `sep.join(parts)`. */
  function Join(sep: string, parts: seq<string>): string
    decreases |parts|
  {
    if |parts| == 0 then ""
    else if |parts| == 1 then parts[0]
    else parts[0] + sep + Join(sep, parts[1..])
  }

  /** `s.startswith(prefix)`. */
  predicate StartsWith(s: string, prefix: string)
  {
    |prefix| <= |s| && s[..|prefix|] == prefix
  }

  /** The length of a join depends only on the lengths of the separator and the parts. */
  lemma {:induction false} JoinSameLength(sep1: string, parts1: seq<string>, sep2: string, parts2: seq<string>)
    requires |sep1| == |sep2| && |parts1| == |parts2|
    requires forall k | 0 <= k < |parts1| :: |parts1[k]| == |parts2[k]|
    ensures |Join(sep1, parts1)| == |Join(sep2, parts2)|
    decreases |parts1|
  {
    if |parts1| > 1 {
      JoinSameLength(sep1, parts1[1..], sep2, parts2[1..]);
    }
  }

  /** Each part wrapped as `left + part + right`. */
  function Framed(left: string, parts: seq<string>, right: string): (cs: seq<string>)
    ensures |cs| == |parts|
    ensures forall k | 0 <= k < |parts| :: cs[k] == left + parts[k] + right
  {
    seq(|parts|, k requires 0 <= k < |parts| => left + parts[k] + right)
  }

  /** Joining with `right + left` and framing with `left` and `right` is the same as
      writing out each part as its own cell `left + part + right`. */
  lemma {:induction false} JoinAsCells(left: string, right: string, parts: seq<string>)
    requires parts != []
    ensures left + Join(right + left, parts) + right == Concat(Framed(left, parts, right))
    decreases |parts|
  {
    var cells := Framed(left, parts, right);
    if |parts| == 1 {
      assert Concat(cells[1..]) == "";
    } else {
      var rest := parts[1..];
      JoinAsCells(left, right, rest);
      assert cells[1..] == Framed(left, rest, right);
      var j := Join(right + left, rest);
      calc {
        left + Join(right + left, parts) + right;
        left + (parts[0] + (right + left) + j) + right;
        (left + parts[0] + right) + (left + j + right);
        cells[0] + Concat(cells[1..]);
      }
    }
  }

  /** A character that is neither in the separator nor in any part is not in the join. */
  lemma {:induction false} JoinExcludes(sep: string, parts: seq<string>, c: char)
    requires c !in sep && forall k | 0 <= k < |parts| :: c !in parts[k]
    ensures c !in Join(sep, parts)
    decreases |parts|
  {
    if |parts| > 1 {
      JoinExcludes(sep, parts[1..], c);
    }
  }

  /** `c * n` for a one-character string `c`. */
  function Repeat(c: char, n: nat): (r: string)
    ensures |r| == n
    ensures forall k | 0 <= k < n :: r[k] == c
  {
    seq(n, _ => c)
  }

  /** Concatenation of a list of strings (`"".join(parts)`). */
  function Concat(parts: seq<string>): string
    decreases |parts|
  {
    if parts == [] then "" else parts[0] + Concat(parts[1..])
  }

  /** Number of occurrences of the character `c` in `s`. */
  function CountChar(s: string, c: char): (n: nat)
    ensures n <= |s|
    decreases |s|
  {
    if s == [] then 0 else (if s[0] == c then 1 else 0) + CountChar(s[1..], c)
  }

  lemma {:induction false} CountCharAppend(a: string, b: string, c: char)
    ensures CountChar(a + b, c) == CountChar(a, c) + CountChar(b, c)
    decreases |a|
  {
    if a != [] {
      assert (a + b)[0] == a[0];
      assert (a + b)[1..] == a[1..] + b;
      CountCharAppend(a[1..], b, c);
    } else {
      assert a + b == b;
    }
  }

  /** A string without `c` counts no `c`. */
  lemma {:induction false} CountCharAbsent(s: string, c: char)
    requires forall k | 0 <= k < |s| :: s[k] != c
    ensures CountChar(s, c) == 0
    decreases |s|
  {
    if s != [] {
      CountCharAbsent(s[1..], c);
    }
  }
}

=== FILE: wrappers.dfy ===
/** Optional values and error-carrying results used across the model. */
module Wrappers {

  /** Python's `None` or a present value. */
  datatype Option<T> = None | Some(value: T) {

    /** The value, or `default` when absent (`x if x is not None else default`). */
    function GetOr(default: T): T
    {
      match this
      case Some(v) => v
      case None => default
    }
  }

  /** A computation that either succeeds or raises; `detail` is the text `str(e)` of the exception. */
  datatype Result<T> = Ok(value: T) | Err(detail: string)
}
